=== FILE: README.md ===
# Tags, the sync pass and the desktop shell's sync bookkeeping, in Dafny

This project models three cooperating pieces of the Bitwarden clients:

- **The tag subsystem of the vault.** This covers the three shapes of a tag:
  - `TagData`, the encrypted record as stored and as the server sends it;
  - `Tag`, the domain object whose name is ciphertext;
  - `TagView`, the decrypted projection.

  It also covers the two per-user state keys they live under, and the `TagService` that maintains them:
  - a per-user encrypted record map, which is the source of truth;
  - a per-user decrypted view cache.

  Every mutation (`upsert`, `replace`, `delete`, `clear`) empties the cache, so the next read decrypts afresh. A read serves a non-empty cache as is. Otherwise it decrypts every record, sorts the views by name and appends one "no tag" sentinel whose id is null.
- **The tag API client.** `TagApiService` makes its remote call first and applies the matching local change only after that call succeeds.
- **The decision logic of `DefaultSyncService.fullSync`.**
  - Whether a pass is needed, and the deleted-account logout.
  - The fixed step order.
  - When the last-sync time is recorded.
  - How errors surface, with or without `allowThrowOnError`.
  - The security-stamp check in the profile step, which runs before any key material is written.
  - The force-set-password rule and the organisation/provider merge.
  - The id-keyed maps handed to each `replace`, and the equivalent-domain list.
- **A slice of the desktop `AppComponent`:**
  - the six-hour `checkSyncVault` rule;
  - the per-account clean-up flags around a logout, and the menu rebuild that skips accounts being cleaned up;
  - the 250 ms activity throttle with its idle flag;
  - the routing of callback deep links.

Modules, one per component:

| module | file | models |
|---|---|---|
| `Wrappers` | wrappers.dfy | `Option` (null/undefined), `Result` (a thrown error), `Remote` (the outcome of a call the model cannot see) |
| `Records` | records.dfy | a JavaScript object used as a string-keyed dictionary: insertion-ordered entries plus the map they denote |
| `Sorting` | sorting.dfy | an insertion sort over an abstract comparator, standing in for the locale collation |
| `TagModels` | tag_models.dfy | `TagData`, `Tag`, `TagView`, their JSON forms, `TagRequest`, `TagWithIdRequest` |
| `TagStateKeys` | tag_state.dfy | the encrypted and decrypted tag key definitions, deserialisers and clear-on events |
| `TagService` | tag_service.dfy | the tag store, the cache, decryption, key events, encryption and key rotation |
| `TagApi` | tag_api.dfy | `save`, `delete` and `deleteAll` over an outcome-valued remote call |
| `SyncProfile` | sync_profile.dfy | the profile step and the pure builders of the other sync steps |
| `SyncPass` | sync.dfy | `needsSyncing` and `fullSync` as a trace of events |
| `AppShell` | app_shell.dfy | `checkSyncVault`, clean-up flags, `updateAppMenu`, `logOut`, `recordActivity`, `processDeepLink` |

How things are represented:

- Null and undefined are both `None`.
- A thrown error is `Failure(message)`. The messages are the source's own, for example "User ID is required." and "Stamp has changed".
- Encryption and decryption are the two function fields of a `Crypto` value, left uninterpreted. Where a round trip matters, a lemma requires `RoundTrips(crypto)`.
- Sorting by name uses any comparator. Sortedness is promised whenever the comparator is a total preorder, and the permutation always.
- Clocks are integer milliseconds passed in. Server answers and the success of service calls are parameters.
- What an operation does to services outside the model is recorded as an ordered list of events: setters, messages, logout requests and the last-sync write. The properties are stated over that trace.

Behaviour modelled as the code has it:

- **`delete` with a list of ids reassigns no cipher.** It compares each cipher's `tagId` with the argument itself, and a string never equals an array (`TagService.StillReferences`, `TagService.ListDeleteReassignsNothing`).
- **`getRotatedData` keeps the "no tag" sentinel.** It encrypts every current view, the sentinel included, so a rotation payload has one entry whose id is null (`TagService.RotationOfFreshViewsKeepsSentinel`).
- **A pass that is not needed returns false.** It still records the current time as the last sync. A failing needs-sync check without `allowThrowOnError` is treated the same way (`SyncPass.UnneededPassRecordsTime`, `SyncPass.FailedCheckSurfaces`).
- **A negative revision date still runs the comparison.** It asks for an "accountDeleted" logout, and the comparison that follows says no pass is needed (`SyncPass.DeletedAccountLogsOutAndSkips`).
- **Null user-decryption options are logged and then throw.** `setForceSetPasswordReasonIfNeeded` logs them, then reads a property of them, so the profile step fails after its setters have run (`SyncProfile.SetForceReasonIfNeeded`).
- **A null trusted-device option counts as present.** The option is compared with `!== undefined`, so only undefined excludes it (`SyncProfile.DeviceOption`).
- **An unmatched deep link is still sent.** `processDeepLink` sends a link that has a code and a state but matches none of the three callback prefixes, with an empty message name (`AppShell.ProcessDeepLink`).
- **The SSO callback prefix is a fixed string.** It is the one in `AppShell.SsoCallback`. The file that defines it is not part of this model.

## Model

| member | source | states |
|---|---|---|
| `TagModels.ParseDate` | libs/common/src/vault/models/domain/tag.ts:39 | a revision date is present exactly when its text is, and serialises back to that text |
| `TagModels.DataFromResponse` | libs/common/src/vault/models/data/tag.data.ts:12-16 | `new TagData(response)` copies id, name and revision date; an absent response leaves all three unset instead of failing |
| `TagModels.DataFromJson` | libs/common/src/vault/models/data/tag.data.ts:18-20 | `TagData.fromJSON` yields a record whose fields equal the JSON's fields |
| `TagModels.TagFromData` | libs/common/src/vault/models/domain/tag.ts:23-40 | no data gives a tag with every field unset; otherwise the id is copied verbatim, the name is present iff the data's name is and wraps exactly that ciphertext, and the revision date is null iff the data's is |
| `TagModels.DecryptWithKey` | libs/common/src/vault/models/domain/tag.ts:46-52 | the view keeps the tag's id and revision date and its name is the decryption of the tag's name under the key |
| `TagModels.TagFromJson` | libs/common/src/vault/models/domain/tag.ts:54-57 | `Tag.fromJSON` keeps the id, maps a null revision date to null and a null name to null |
| `TagModels.TagFromJsonAgreesWithConstructor` | libs/common/src/vault/models/domain/tag.ts:23-57 | deserialising a stored record's JSON gives the same tag as constructing it from the record |
| `TagModels.DefaultView` | libs/common/src/vault/models/view/tag.view.ts:11-13 | a default view has id, name and revision date all null (the sentinel's shape) |
| `TagModels.ViewFromTag` | libs/common/src/vault/models/view/tag.view.ts:15-22 | a view built from a tag copies its id and revision date and leaves the name null; built from nothing it is the default view |
| `TagModels.ViewFromJson` | libs/common/src/vault/models/view/tag.view.ts:24-27 | `TagView.fromJSON` preserves id and name and parses the revision date, null staying null |
| `TagModels.ViewJsonRoundTrip` | libs/common/src/vault/models/view/tag.view.ts:24-27 | serialising a view and reading it back gives the same view |
| `TagModels.RequestFromTag` | libs/common/src/vault/models/request/tag.request.ts:8-10 | the request body has a name exactly when the tag does, and then it is the name's encrypted string |
| `TagModels.WithIdRequestFromTag` | libs/common/src/vault/models/request/tag-with-id.request.ts:8-11 | the rotation payload carries the tag's id and the same name as the plain request |
| `TagStateKeys.DeserializeEncrypted` | libs/common/src/vault/services/key-state/tag.state.ts:7-10 | the record deserialiser keeps every key and the order of entries, each value read through `TagData.fromJSON` |
| `TagStateKeys.EncryptedRoundTrip` | libs/common/src/vault/services/key-state/tag.state.ts:7-10 | reading back a serialised record map gives the same map, entry for entry |
| `TagStateKeys.DeserializeDecrypted` | libs/common/src/vault/services/key-state/tag.state.ts:12-15 | the cache deserialiser maps null to `[]` and otherwise reads element by element, keeping length and order |
| `TagStateKeys.DecryptedRoundTrip` | libs/common/src/vault/services/key-state/tag.state.ts:12-15 | a serialised cache reads back as the same views in the same order |
| `TagService.ClearDecryptedTagState` | libs/common/src/vault/services/tag/tag.service.ts:159-165 | fails with "User ID is required." exactly when the user is null; otherwise the user's cache becomes `[]`, the records are untouched and no other user changes |
| `TagService.Upsert` | libs/common/src/vault/services/tag/tag.service.ts:128-146 | null user fails; otherwise the cache is emptied, an absent record map counts as empty, each given record lands under its id (a later one in a list winning), every other id keeps its record, no other user changes, and unique keys stay unique; a single record with a new id is appended at the end, and one with an existing id replaces that entry in its position |
| `TagService.Replace` | libs/common/src/vault/services/tag/tag.service.ts:148-157 | a null map changes nothing, not even the cache; otherwise null user fails, or the record map becomes exactly the given one with the cache emptied and other users unchanged |
| `TagService.ReplaceIdempotent` | libs/common/src/vault/services/tag/tag.service.ts:148-157 | replacing twice with the same map is the same as replacing once |
| `TagService.ClearRecords` | libs/common/src/vault/services/tag/tag.service.ts:170 | the first write of `clear`: the user's record map becomes `{}`, the cache and other users unchanged |
| `TagService.Clear` | libs/common/src/vault/services/tag/tag.service.ts:167-172 | the user's record map becomes `{}` and the cache `[]`, other users unchanged; it is the records write followed by the cache write |
| `TagService.ReadBetweenClearWritesServesOldCache` | libs/common/src/vault/services/tag/tag.service.ts:170-171 | a read between the two writes of `clear`, with a non-empty cache, returns the views from before the clear although the records are already `{}` |
| `TagService.Reassigned` | libs/common/src/vault/services/tag/tag.service.ts:192-205 | every cipher still referencing the deleted id, and only those, is handed on with its tag nulled; none matching means no update |
| `TagService.ReassignedIsOrderedFilter` | libs/common/src/vault/services/tag/tag.service.ts:196-201 | the reassignment distributes over concatenation and takes a single cipher exactly when it still references the argument, so the updates keep the ciphers' order and hold each matching cipher once |
| `TagService.Delete` | libs/common/src/vault/services/tag/tag.service.ts:174-206 | null user fails; otherwise the cache is emptied, an absent record map stays absent, the listed ids are gone and every other record is kept, and the ciphers upserted are exactly the reassigned ones (none when the cipher list is null) |
| `TagService.ListDeleteReassignsNothing` | libs/common/src/vault/services/tag/tag.service.ts:181-197 | deleting by an array of ids moves no cipher to "no tag" |
| `TagService.Tags` | libs/common/src/vault/services/tag/tag.service.ts:45-55 | no stored map gives no tags; otherwise one domain tag per stored record, in the map's order |
| `TagService.FindById` | libs/common/src/vault/services/tag/tag.service.ts:94 | `find` returns the first tag with that id, or nothing when no tag has it |
| `TagService.Get` | libs/common/src/vault/services/tag/tag.service.ts:91-95 | a found tag has the requested id and is one of the user's tags; nothing is found only when no tag has that id |
| `TagService.GetIsLookup` | libs/common/src/vault/services/tag/tag.service.ts:91-95 | on a map whose records sit under their own ids, `get` finds a tag exactly when the id is a key, and it is that record's tag |
| `TagService.NoneTag` | libs/common/src/vault/services/tag/tag.service.ts:260-262 | the sentinel has null id and revision date and the localised "no tag" label as its name |
| `TagService.DecryptAll` | libs/common/src/vault/services/tag/tag.service.ts:250-257 | one view per record, in order, each the record's tag decrypted under the user key |
| `TagService.DecryptTags` | libs/common/src/vault/services/tag/tag.service.ts:237-267 | a non-empty cache is returned as is and nothing is written; null records or no user key give `[]`; otherwise the result is a permutation of the decrypted records, sorted by name under a total preorder, followed by exactly one sentinel, and that result is written to the cache |
| `TagService.ReadViews` | libs/common/src/vault/services/tag/tag.service.ts:237-267 | a read never changes the records or another user's state, and leaves the cache as it was or holding exactly what it returned |
| `TagService.ReadIsMemoised` | libs/common/src/vault/services/tag/tag.service.ts:242-244 | two reads with no mutation in between return the same views |
| `TagService.MutationInvalidatesCache` | libs/common/src/vault/services/tag/tag.service.ts:128-206 | after any upsert, delete, clear or non-null replace the next read is decrypted from the records as they now are |
| `TagService.ReplaceThenReadShowsOnlyNewRecords` | libs/common/src/vault/services/tag/tag.service.ts:148-157 | after replacing the map with one holding record 2, a read shows record 2 and the sentinel and no view of a replaced record |
| `TagService.ClearThenRead` | libs/common/src/vault/services/tag/tag.service.ts:167-172 | after `clear` a read yields exactly the sentinel, or `[]` while no user key is available |
| `TagService.OnEvent` | libs/common/src/vault/services/key-state/tag.state.ts:7-15 | a logout wipes both keys of that user, a lock wipes only the cache, and no other user is affected |
| `TagService.LockKeepsRecordsAndForcesDecryption` | libs/common/src/vault/services/key-state/tag.state.ts:7-15 | a lock keeps the records and the next read decrypts them afresh |
| `TagService.LogoutLeavesNoViews` | libs/common/src/vault/services/key-state/tag.state.ts:7-15 | after a logout a read yields no views at all |
| `TagService.Encrypt` | libs/common/src/vault/services/tag/tag.service.ts:84-89 | the tag keeps the view's id, its name is the view's name encrypted under the key, and it has no revision date |
| `TagService.EncryptThenDecrypt` | libs/common/src/vault/services/tag/tag.service.ts:84-89 | with a round-tripping cipher, decrypting an encrypted view gives back its id and name |
| `TagService.GetRotatedData` | libs/common/src/vault/services/tag/tag.service.ts:208-229 | a null new key fails before any encryption; otherwise one payload per current view, in order, each with the view's id and its name encrypted under the new key; no views give `[]` |
| `TagService.RotationPreservesNames` | libs/common/src/vault/services/tag/tag.service.ts:222-227 | with a round-tripping cipher, each payload's name decrypts under the new key to the view's name |
| `TagService.RotationOfFreshViewsKeepsSentinel` | libs/common/src/vault/services/tag/tag.service.ts:218-227 | rotating freshly decrypted tags yields one payload per record plus one with a null id, for the sentinel |
| `Records.Put` | libs/common/src/vault/services/tag/tag.service.ts:135-137 | `o[k] = v` makes the dictionary map `k` to `v` and leaves every other key as it was; a new key is appended at the end; on unique keys an existing key is overwritten in its position and every other entry stays where it was; unique keys stay unique |
| `Records.PutAll` | libs/common/src/vault/services/tag/tag.service.ts:139-141 | assigning a list of entries in turn gives the old dictionary overridden by the list, the last assignment to a key winning |
| `Records.RemoveAll` | libs/common/src/vault/services/tag/tag.service.ts:181-187 | deleting a list of keys removes exactly those that are present and keeps every other entry's value |
| `Sorting.InsertionSort` | libs/common/src/vault/services/tag/tag.service.ts:258 | the sorted views are a permutation of the input, and sorted whenever the comparator is a total preorder |
| `TagApi.Save` | libs/common/src/vault/services/tag/tag-api.service.ts:16-30 | a tag without an id is POSTed to `/tags` and takes the server's id; one with an id is PUT to `/tags/{id}` and keeps it; the body is the tag's request; a failed call changes no local state; after success the record built from the response is upserted and returned |
| `TagApi.SaveStoresResponse` | libs/common/src/vault/services/tag/tag-api.service.ts:27-29 | after a successful save the returned record is stored under the server's id and the cache is empty |
| `TagApi.DeleteTag` | libs/common/src/vault/services/tag/tag-api.service.ts:32-35 | DELETE `/tags/{id}` is sent first; a failed call changes nothing; otherwise the outcome is the local delete of that id |
| `TagApi.DeleteAll` | libs/common/src/vault/services/tag/tag-api.service.ts:37-40 | DELETE `/tags/all` is sent first; a failed call changes nothing; otherwise the outcome is exactly `clear` of that user: the user's records and cache are emptied and no other user changes |
| `SyncProfile.HasManageResetPasswordPermission` | libs/common/src/platform/sync/default-sync.service.ts:252-262 | true exactly when some organisation makes the user Admin or Owner or grants `manageResetPassword` |
| `SyncProfile.SetForceReasonIfNeeded` | libs/common/src/platform/sync/default-sync.service.ts:232-277 | at most two effects; the admin reason is set (first) exactly when the profile says the password was reset; null decryption options are logged last and fail; otherwise the TDE reason is set, last and so left in force, exactly when a device option is present, there is no master password and some organisation grants reset-password |
| `SyncProfile.MemberOrganizations` | libs/common/src/platform/sync/default-sync.service.ts:280-286 | one entry per member organisation id, marked member and not provider user, holding the last response entry with that id |
| `SyncProfile.AddProviderOrganizations` | libs/common/src/platform/sync/default-sync.service.ts:288-297 | a provider organisation not yet present is added as provider user and not member; one already present keeps its data and gains the provider-user mark |
| `SyncProfile.MergeOrganizations` | libs/common/src/platform/sync/default-sync.service.ts:279-300 | the ids are the union of both lists; an id is a member exactly when it is in the member list and a provider user exactly when it is in the provider list; a member id holds the last member response with that id, and any other id holds its provider organisation |
| `SyncProfile.ProfileWrites` | libs/common/src/platform/sync/default-sync.service.ts:191-209 | the setters begin with the master-key-encrypted user key and include setting the server's security stamp |
| `SyncProfile.Completion` | libs/common/src/platform/sync/default-sync.service.ts:213-229 | the merged organisations are replaced, and the convert-account message is sent exactly when migration is needed |
| `SyncProfile.AfterStampCheck` | libs/common/src/platform/sync/default-sync.service.ts:191-229 | once the stamp matches, the key material is written first and the stamp is stored; the step succeeds exactly when decryption options exist, and then the merged organisations are replaced and the convert-account message is sent exactly when migration is needed |
| `SyncProfile.SyncProfileStep` | libs/common/src/platform/sync/default-sync.service.ts:181-230 | a non-null stored stamp that differs fails with "Stamp has changed" before anything is written, requesting an "invalidSecurityStamp" logout, and nothing else, exactly when a callback exists and requesting nothing without one; a matching or null stored stamp proceeds to the writes |
| `SyncProfile.IndexById` | libs/common/src/platform/sync/default-sync.service.ts:302-332 | the map built for folders, collections, ciphers and sends has one key per item id, holding the last item with that id |
| `SyncProfile.PolicyMap` | libs/common/src/platform/sync/default-sync.service.ts:351-359 | a null policy list gives an empty map; otherwise one key per policy id, holding the last policy with that id |
| `SyncProfile.NonEmptyGlobals` | libs/common/src/platform/sync/default-sync.service.ts:340-346 | exactly the non-empty global domain lists are kept |
| `SyncProfile.NonEmptyGlobalsIsOrderedFilter` | libs/common/src/platform/sync/default-sync.service.ts:341-345 | the filter distributes over concatenation and keeps a single list exactly when it is non-empty, so the kept lists appear once each, in their original order |
| `SyncProfile.EquivalentDomains` | libs/common/src/platform/sync/default-sync.service.ts:334-349 | a null response gives `[]`; otherwise the user's equivalent domains come first, followed by the non-empty global lists in their original order |
| `SyncPass.NeedsSyncing` | libs/common/src/platform/sync/default-sync.service.ts:159-179 | forced, never synced or synced at time zero means needed without asking the server; otherwise the revision date is fetched, a failed fetch is the error, a negative revision requests the deleted-account logout exactly when a callback exists, and "not needed" holds exactly when the revision is no later than the last sync |
| `SyncPass.DeletedAccountLogsOutAndSkips` | libs/common/src/platform/sync/default-sync.service.ts:169-178 | a negative revision date both requests the logout and answers that no pass is needed |
| `SyncPass.RunSteps` | libs/common/src/platform/sync/default-sync.service.ts:135-146 | the steps attempted are a prefix of the order; there is no error exactly when no step fails, and otherwise the last step attempted is the first failing one and its error is reported |
| `SyncPass.StepsPhase` | libs/common/src/platform/sync/default-sync.service.ts:135-156 | the pass completes successfully, resolving true and recording the time just before completion, exactly when all steps succeed; otherwise the step's error is thrown with `allowThrow` or false is returned |
| `SyncPass.AfterCheck` | libs/common/src/platform/sync/default-sync.service.ts:121-156 | a thrown check with `allowThrow` runs nothing and records nothing; an unneeded pass or a swallowed error records the time and resolves false; a needed pass behaves as the steps phase |
| `SyncPass.FullSync` | libs/common/src/platform/sync/default-sync.service.ts:111-157 | every pass starts with the start event and ends with a completion that is successful exactly when the pass resolves true; a logged-out account completes unsuccessfully with nothing in between; a recorded last-sync time is the event just before completion |
| `SyncPass.FailedCheckSurfaces` | libs/common/src/platform/sync/default-sync.service.ts:121-133 | a failed needs-sync check runs no step; it rethrows without recording the time with `allowThrow`, and otherwise records the time and resolves false |
| `SyncPass.UnneededPassRecordsTime` | libs/common/src/platform/sync/default-sync.service.ts:130-133 | an unneeded pass runs no step, records the time and resolves false |
| `SyncPass.NeededPassRunsSteps` | libs/common/src/platform/sync/default-sync.service.ts:135-156 | a needed pass attempts the fixed order up to the first failure, and resolves true and records the time exactly when no step fails |
| `SyncPass.DeletedAccountRequestsLogout` | libs/common/src/platform/sync/default-sync.service.ts:169-173 | the pass requests an "accountDeleted" logout exactly when it is not logged out, not forced, has a non-zero last sync, and the server returns a negative revision with a callback registered |
| `SyncPass.PassRunsPrefixOfStepOrder` | libs/common/src/platform/sync/default-sync.service.ts:135-146 | whatever happens, the steps a pass runs are a prefix of token refresh, snapshot, profile, folders, collections, ciphers, sends, settings, policies |
| `SyncPass.PassWithoutAllowThrowResolves` | libs/common/src/platform/sync/default-sync.service.ts:123-155 | without `allowThrowOnError` a pass never rejects |
| `SyncPass.ProfileFailureAbortsPass` | libs/common/src/platform/sync/default-sync.service.ts:139-156 | a failing profile step stops the pass before the folders, does not record the time, and surfaces its error or false |
| `SyncPass.StampMismatchAbortsPass` | libs/common/src/platform/sync/default-sync.service.ts:181-189 | a changed security stamp fails the whole pass after the profile step, with "Stamp has changed" rethrown or false returned, and no last-sync time |
| `AppShell.CheckSyncVault` | apps/desktop/src/app/app.component.ts:364-379 | a non-forced full sync is requested exactly when the last sync was read and is absent or at least six hours old; a failed read is logged; the next check is always scheduled, last |
| `AppShell.DueCheckLogsNothing` | apps/desktop/src/app/app.component.ts:364-379 | since the check's pass is not allowed to throw, a check that read its last-sync time never logs an error |
| `AppShell.StartCleanup` | apps/desktop/src/app/app.component.ts:816-818 | marks the account as being cleaned up and leaves every other flag as it was |
| `AppShell.FinishCleanup` | apps/desktop/src/app/app.component.ts:821-823 | clears the account's mark and leaves every other flag as it was |
| `AppShell.MenuEntry` | apps/desktop/src/app/app.component.ts:564-571 | the entry is authenticated exactly when the status is at least Locked and locked exactly when it is Locked, lockable and with a master password exactly as the account's facts say, with the account's id and email |
| `AppShell.MenuAccounts` | apps/desktop/src/app/app.component.ts:551-573 | an account appears exactly when it is not being cleaned up, and its entry is built from its own state |
| `AppShell.UpdateAppMenu` | apps/desktop/src/app/app.component.ts:542-583 | null or no accounts give null accounts and null active id; otherwise the accounts not being cleaned up, each with the entry built from its own state and facts, and the active id |
| `AppShell.LogOut` | apps/desktop/src/app/app.component.ts:649-723 | the account logged out is the given one or the active one; it is marked as being cleaned up while its data is cleared (other flags untouched) and the mark is always removed again; a failed clear stops before the auth logout; otherwise the active account switches to the next one, or to no account and the login page, the menu is rebuilt (naming no active account after a switch to none) and the auth logout comes last |
| `AppShell.MenuSkipsAccountBeingLoggedOut` | apps/desktop/src/app/app.component.ts:552-558 | a menu rebuilt with the flags in force during a logout's clear leaves the account being logged out out |
| `AppShell.RecordActivity` | apps/desktop/src/app/app.component.ts:725-753 | nothing happens without an active account or within 250 ms of the last recorded activity; otherwise the time is recorded, an idle account reconnects exactly when it was idle, and the ten-minute idle timer restarts |
| `AppShell.IdleTimerFired` | apps/desktop/src/app/app.component.ts:747-752 | the account becomes idle, disconnecting only if it was not idle already |
| `AppShell.ActivityIsThrottled` | apps/desktop/src/app/app.component.ts:730-735 | of two activity reports less than 250 ms apart only the first is recorded |
| `AppShell.IdleThenActivityReconnects` | apps/desktop/src/app/app.component.ts:739-742 | activity after the idle timer has fired reconnects |
| `AppShell.IndexOf` | apps/desktop/src/app/app.component.ts:841 | `indexOf` is the first position where the prefix occurs, or -1 when it occurs nowhere |
| `AppShell.ProcessDeepLink` | apps/desktop/src/app/app.component.ts:831-854 | no code sends nothing; a duo link is sent as "duoCallback" even without a state; any other link without a state sends nothing; with code and state a LastPass import link is "importCallbackLastPass", an SSO link "ssoCallback", any other link an empty name; the code and state are passed on |
| `AppShell.CallbackPrefixesAreExclusive` | apps/desktop/src/app/app.component.ts:841-851 | no link starts with two of the three callback prefixes, so a duo link keeps its name |

## Left out

- Observable streams: `tagViews$`, `getDecrypted$` and the forced empty emission in `clear` are streams. A read is modelled as one function over the record map, the cache and the user key.
- `getAllFromState`, `getFromState` and `getAllDecryptedFromState` are one-line wrappers around `tags$`, `get` and a read.
- `TagApiService.get` is a plain GET with no logic of its own.
- The `@sequentialize` de-duplication of concurrent `fullSync` calls is concurrency only. One sequential pass is modelled.
- Cryptography: encryption, decryption and key material are uninterpreted. The key and state setters of the profile step are recorded as events, without their values.
- Locale collation is an abstract comparator.
- HTTP transport and token refresh: each remote call is an outcome parameter. `TagResponse` and the sync response classes are not part of this model.
- `Date` parsing: revision dates are kept as their text, and sync times are integer milliseconds.
- URL parsing: `processDeepLink` receives the `code` and `state` parameters already extracted. A URL that `new URL` rejects is not modelled.
- The rest of `AppComponent` is UI and IPC plumbing. This covers the message dispatch, dialogs, routing, the logout reason dialog's content, and the five-second logout timeout, which is an error of the clear step here.
- The idle timer's scheduling is represented by an event and a separate "timer fired" transition; real time does not pass.
- The Angular tag components are UI with no independent logic.
- TagService.Clear: the model composes the records write and the cache write in the source's order but does not model the view stream. In the source, the `{}` emission from the records write can reach the view stream while the old cache is still present. If it does, the stream can show the views from before the clear after the forced `[]`. `ReadBetweenClearWritesServesOldCache` states the read in that intermediate state.
- TagApi.Save: the source writes the server's id into the caller's tag object before the upsert. If the upsert then fails, that object keeps the new id. The model has no caller-owned objects; it returns the failure and no tag.
- TagService.Clear: with a null user the source first updates the encrypted state under the null user and only then throws. The model fails without changing anything, because the state provider's treatment of a null user is not part of this model.
- Records.Put: JavaScript enumerates integer-like keys first, in ascending order. The model keeps insertion order for every key, so `Object.values` order is exact only for non-numeric ids, such as GUIDs.
- SyncPass.FullSync: the logout callback's own failure and a failure of the last-sync write itself are not modelled; both are treated as succeeding.
- AppShell.LogOut: the `switchAccount` message sent for a next account is taken to be handled after the menu rebuild, so that menu still names the account being logged out as active.
- TagModels.TagFromData: the generic domain-model helper the `Tag` constructor uses is not part of this model. It stores a falsy id or name, such as `""`, as null, while `Tag.fromJSON` keeps `""`. The model copies both fields as they are, so `TagModels.TagFromJsonAgreesWithConstructor` does not cover empty strings.
- Records.PropertyKey: null and undefined are both `None`, and both become the key "undefined". JavaScript turns a null id into the key "null".
- SyncProfile.ProfileWrites: the profile fields written (keys, avatar colour, premium flags and so on) are not carried; only the order of the setters and the security stamp are.

=== FILE: app_shell.dfy ===
/** The desktop shell's sync scheduling and account bookkeeping: the periodic vault
    sync check, the per-account clean-up flags around a logout, the menu update that
    skips accounts being cleaned up, the activity throttle with its idle flag, and the
    routing of callback deep links. Service calls are recorded as events; their
    answers are inputs. */
module AppShell {
  import opened Wrappers
  import opened Records
  import SyncPass

  type UserId = string

  /** Six hours, in milliseconds. */
  const SyncInterval: int := 6 * 60 * 60 * 1000

  /** Ten minutes, in milliseconds. */
  const IdleTimeout: int := 60000 * 10

  /** Activity closer than this to the last recorded one is ignored. */
  const ActivityThrottle: int := 250

  const DuoCallback := "bitwarden://duo-callback"
  const ImportCallbackLastPass := "bitwarden://import-callback-lp"
  const SsoCallback := "bitwarden://sso-callback"

  // ---------------------------------------------------------- sync check

  datatype ShellEvent =
    | FullSyncRequested(force: bool)
    | ErrorLogged(error: string)
    | NextSyncScheduled

  /** The "checkSyncVault" message: a vault never synced, or last synced at least six hours
      ago, gets a non-forced full sync; any error is logged; the next check is always
      scheduled. `lastSync` is the stored last-sync time, `pass` how the sync ended. */
  function CheckSyncVault(lastSync: Remote<Option<int>>, now: int, pass: SyncPass.SyncOutcome): (es: seq<ShellEvent>)
    ensures |es| >= 1 && es[|es| - 1] == NextSyncScheduled
    ensures FullSyncRequested(false) in es <==>
      lastSync.Resolved? && (lastSync.response.None? || now - lastSync.response.value >= SyncInterval)
    ensures forall e :: e in es ==> e == FullSyncRequested(false) || e.ErrorLogged? || e == NextSyncScheduled
    ensures lastSync.Rejected? ==> es == [ErrorLogged(lastSync.reason), NextSyncScheduled]
  {
    match lastSync
    case Rejected(reason) => [ErrorLogged(reason), NextSyncScheduled]
    case Resolved(last) =>
      var ago := if last.Some? then now - last.value else SyncInterval + 1;
      if ago < SyncInterval then [NextSyncScheduled]
      else if pass.Threw? then [FullSyncRequested(false), ErrorLogged(pass.error), NextSyncScheduled]
      else [FullSyncRequested(false), NextSyncScheduled]
  }

  /** The check asks for a pass without `allowThrow`, and such a pass never rejects, so a
      due check that read its last-sync time logs nothing. */
  lemma DueCheckLogsNothing(lastSync: Option<int>, now: int, auth: SyncPass.AuthStatus, lastPass: Option<int>,
                            revision: Remote<int>, hasLogoutCallback: bool, failures: map<SyncPass.SyncStep, string>)
    ensures var pass := SyncPass.FullSync(auth, false, false, now, lastPass, revision, hasLogoutCallback, failures);
      forall e :: e in CheckSyncVault(Resolved(lastSync), now, pass.outcome) ==> !e.ErrorLogged?
  {
    SyncPass.PassWithoutAllowThrowResolves(auth, false, now, lastPass, revision, hasLogoutCallback, failures);
  }

  // ------------------------------------------------------ clean-up flags

  /** `accountCleanUpInProgress`: a JavaScript object from account id to flag. */
  type CleanupFlags = map<string, bool>

  function StartCleanup(flags: CleanupFlags, user: Option<UserId>): (f: CleanupFlags)
    ensures CleanupInProgress(f, user)
    ensures forall k :: k in flags && k != PropertyKey(user) ==> k in f && f[k] == flags[k]
  {
    flags[PropertyKey(user) := true]
  }

  function FinishCleanup(flags: CleanupFlags, user: Option<UserId>): (f: CleanupFlags)
    ensures !CleanupInProgress(f, user)
    ensures forall k :: k in flags && k != PropertyKey(user) ==> k in f && f[k] == flags[k]
  {
    flags[PropertyKey(user) := false]
  }

  /** Only a flag that is exactly `true` counts; a missing one does not. */
  predicate CleanupInProgress(flags: CleanupFlags, user: Option<UserId>) {
    PropertyKey(user) in flags && flags[PropertyKey(user)]
  }

  // ---------------------------------------------------------------- menu

  datatype StateAccount = StateAccount(email: string)

  datatype MenuAccount = MenuAccount(
    isAuthenticated: bool,
    isLocked: bool,
    isLockable: bool,
    email: string,
    userId: UserId,
    hasMasterPassword: bool)

  datatype MenuUpdateRequest = MenuUpdateRequest(accounts: Option<Rec<MenuAccount>>, activeUserId: Option<UserId>)

  /** What the menu needs to know about one account, looked up by its id. */
  datatype AccountFacts = AccountFacts(
    status: UserId -> SyncPass.AuthStatus,
    lockable: UserId -> bool,
    hasMasterPassword: UserId -> bool)

  function MenuEntry(id: UserId, account: StateAccount, facts: AccountFacts): (m: MenuAccount)
    ensures m.isAuthenticated <==> SyncPass.Ordinal(facts.status(id)) >= SyncPass.Ordinal(SyncPass.Locked)
    ensures m.isLocked <==> facts.status(id) == SyncPass.Locked
    ensures m.isLockable == facts.lockable(id) && m.hasMasterPassword == facts.hasMasterPassword(id)
    ensures m.userId == id && m.email == account.email
  {
    var status := facts.status(id);
    MenuAccount(
      SyncPass.Ordinal(status) >= SyncPass.Ordinal(SyncPass.Locked),
      status == SyncPass.Locked,
      facts.lockable(id),
      account.email,
      id,
      facts.hasMasterPassword(id))
  }

  /** The menu entries for every account that is not being cleaned up, in the accounts' order. */
  function MenuAccounts(accounts: Rec<StateAccount>, flags: CleanupFlags, facts: AccountFacts): (r: Rec<MenuAccount>)
    ensures forall k :: k in Keys(r) <==> k in Keys(accounts) && !CleanupInProgress(flags, Some(k))
    ensures forall k :: k in ToMap(r) ==> ToMap(r)[k] == MenuEntry(k, ToMap(accounts)[k], facts)
    ensures UniqueKeys(accounts) ==> UniqueKeys(r)
  {
    if accounts == [] then []
    else
      var rest := MenuAccounts(accounts[1..], flags, facts);
      var e := accounts[0];
      if CleanupInProgress(flags, Some(e.key)) then rest
      else
        var r := [Entry(e.key, MenuEntry(e.key, e.value, facts))] + rest;
        assert r[0].key == e.key && r[1..] == rest;
        r
  }

  /** `updateAppMenu`: with no accounts (null or empty) both fields are null; otherwise one
      entry per account not being cleaned up, and the active account's id. */
  function UpdateAppMenu(accounts: Option<Rec<StateAccount>>, flags: CleanupFlags, facts: AccountFacts,
                         active: Option<UserId>): (req: MenuUpdateRequest)
    ensures accounts.None? || accounts.value == [] ==> req == MenuUpdateRequest(None, None)
    ensures accounts.Some? && accounts.value != [] ==>
      && req.activeUserId == active
      && req.accounts.Some?
      && (forall k :: k in Keys(req.accounts.value) <==> k in Keys(accounts.value) && !CleanupInProgress(flags, Some(k)))
    ensures accounts.Some? && accounts.value != [] ==>
      forall k :: k in ToMap(req.accounts.value) ==> ToMap(req.accounts.value)[k] == MenuEntry(k, ToMap(accounts.value)[k], facts)
  {
    match accounts
    case None => MenuUpdateRequest(None, None)
    case Some(acc) =>
      if acc == [] then MenuUpdateRequest(None, None)
      else MenuUpdateRequest(Some(MenuAccounts(acc, flags, facts)), active)
  }

  // -------------------------------------------------------------- logout

  datatype LogoutEvent =
    | ReasonShown(reason: string)
    | AccountDataCleared(user: Option<UserId>)
    | SwitchedTo(next: UserId)
    | SwitchedToNone
    | LoginShown
    | MenuUpdated(request: MenuUpdateRequest)
    | AuthLoggedOut(user: Option<UserId>)

  /** One logout: what happened, the clean-up flags in force while the account's data was
      being cleared, the flags afterwards, and the result. */
  datatype LogoutRun = LogoutRun(events: seq<LogoutEvent>, during: CleanupFlags, flags: CleanupFlags, result: Result<Unit>)

  /** `logOut`: the account logged out is the given one, or the active one when none is
      given. It is marked as being cleaned up, its data is cleared, and the mark is removed
      whether or not clearing succeeded. Only after a successful clear does the display move
      on (to the next account, or to the login page when the active account had no
      successor), the menu get rebuilt and the account service log out, in that order.
      Switching to no account happens before the menu reads the active account, so that
      menu names none; the switch to a next account is a message handled later, so that
      menu still names the account being logged out. */
  function LogOut(reason: string, user: Option<UserId>, active: Option<UserId>, nextUp: Option<UserId>,
                  flags: CleanupFlags, cleared: Remote<Unit>,
                  accounts: Option<Rec<StateAccount>>, facts: AccountFacts): (run: LogoutRun)
    ensures var who := if user.Some? then user else active;
      && CleanupInProgress(run.during, who)
      && (forall k :: k in flags && k != PropertyKey(who) ==> k in run.during && run.during[k] == flags[k])
      && !CleanupInProgress(run.flags, who)
      && (forall k :: k in flags && k != PropertyKey(who) ==> k in run.flags && run.flags[k] == flags[k])
      && |run.events| >= 2 && run.events[0] == ReasonShown(reason)
      && AccountDataCleared(who) in run.events
      && (cleared.Rejected? ==> run.result == Failure(cleared.reason) && AuthLoggedOut(who) !in run.events)
      && (cleared.Resolved? ==>
            && run.result.Success?
            && run.events[|run.events| - 1] == AuthLoggedOut(who)
            && (who == active && nextUp.None? ==> MenuUpdated(UpdateAppMenu(accounts, run.flags, facts, None)) in run.events)
            && (who != active || nextUp.Some? ==> MenuUpdated(UpdateAppMenu(accounts, run.flags, facts, active)) in run.events)
            && (who != active ==> forall e :: e in run.events ==> !e.SwitchedTo? && e != LoginShown)
            && (who == active && nextUp.Some? ==> SwitchedTo(nextUp.value) in run.events)
            && (who == active && nextUp.None? ==> LoginShown in run.events))
  {
    var who := if user.Some? then user else active;
    var during := StartCleanup(flags, who);
    var after := FinishCleanup(during, who);
    var cleaning := [ReasonShown(reason), AccountDataCleared(who)];
    match cleared
    case Rejected(e) => LogoutRun(cleaning, during, after, Failure(e))
    case Resolved(_) =>
      var display :=
        if who != active then []
        else if nextUp.Some? then [SwitchedTo(nextUp.value)]
        else [SwitchedToNone, LoginShown];
      var menuActive := if who == active && nextUp.None? then None else active;
      var tail := [MenuUpdated(UpdateAppMenu(accounts, after, facts, menuActive)), AuthLoggedOut(who)];
      LogoutRun(cleaning + display + tail, during, after, Success(Unit))
  }

  /** While a logout is clearing an account's data, a menu rebuild (one a sync triggers, say)
      leaves that account out. */
  lemma MenuSkipsAccountBeingLoggedOut(reason: string, user: Option<UserId>, active: Option<UserId>,
                                       nextUp: Option<UserId>, flags: CleanupFlags, cleared: Remote<Unit>,
                                       accounts: Option<Rec<StateAccount>>, facts: AccountFacts,
                                       current: Rec<StateAccount>, menuActive: Option<UserId>)
    requires current != []
    ensures var run := LogOut(reason, user, active, nextUp, flags, cleared, accounts, facts);
      var who := if user.Some? then user else active;
      var req := UpdateAppMenu(Some(current), run.during, facts, menuActive);
      req.accounts.Some? && PropertyKey(who) !in Keys(req.accounts.value)
  {
    var run := LogOut(reason, user, active, nextUp, flags, cleared, accounts, facts);
    var who := if user.Some? then user else active;
    assert CleanupInProgress(run.during, Some(PropertyKey(who)));
  }

  // ------------------------------------------------------------ activity

  datatype ActivityState = ActivityState(lastActivity: Option<int>, isIdle: bool)

  datatype ActivityEvent =
    | ActivitySet(user: UserId, at: int)
    | ReconnectedFromActivity
    | DisconnectedFromInactivity
    | IdleTimerStarted(delay: int)

  datatype ActivityRun = ActivityRun(state: ActivityState, events: seq<ActivityEvent>)

  /** `recordActivity`: ignored without an active account, or within 250 ms of the last
      recorded activity. Otherwise the time is recorded for the active account, an idle
      account becomes active again and reconnects, and the idle timer restarts. */
  function RecordActivity(s: ActivityState, active: Option<UserId>, now: int): (r: ActivityRun)
    ensures active.None? || (s.lastActivity.Some? && now - s.lastActivity.value < ActivityThrottle) ==>
      r == ActivityRun(s, [])
    ensures active.Some? && (s.lastActivity.None? || now - s.lastActivity.value >= ActivityThrottle) ==>
      && r.state == ActivityState(Some(now), false)
      && |r.events| >= 2 && r.events[0] == ActivitySet(active.value, now)
      && r.events[|r.events| - 1] == IdleTimerStarted(IdleTimeout)
      && (ReconnectedFromActivity in r.events <==> s.isIdle)
  {
    match active
    case None => ActivityRun(s, [])
    case Some(u) =>
      if s.lastActivity.Some? && now - s.lastActivity.value < ActivityThrottle then ActivityRun(s, [])
      else
        var wake := if s.isIdle then [ReconnectedFromActivity] else [];
        ActivityRun(ActivityState(Some(now), false), [ActivitySet(u, now)] + wake + [IdleTimerStarted(IdleTimeout)])
  }

  /** The idle timer firing: an active account becomes idle and disconnects. */
  function IdleTimerFired(s: ActivityState): (r: ActivityRun)
    ensures r.state.isIdle && r.state.lastActivity == s.lastActivity
    ensures r.events == (if s.isIdle then [] else [DisconnectedFromInactivity])
  {
    if s.isIdle then ActivityRun(s, [])
    else ActivityRun(s.(isIdle := true), [DisconnectedFromInactivity])
  }

  /** Two activity reports less than 250 ms apart record only the first. */
  lemma ActivityIsThrottled(s: ActivityState, u: UserId, t1: int, t2: int)
    requires s.lastActivity.None? || t1 - s.lastActivity.value >= ActivityThrottle
    requires t1 <= t2 < t1 + ActivityThrottle
    ensures var first := RecordActivity(s, Some(u), t1);
      RecordActivity(first.state, Some(u), t2) == ActivityRun(first.state, [])
  {
  }

  /** Going idle and then seeing activity again reconnects. */
  lemma IdleThenActivityReconnects(s: ActivityState, u: UserId, now: int)
    requires s.lastActivity.None? || now - s.lastActivity.value >= ActivityThrottle
    ensures ReconnectedFromActivity in RecordActivity(IdleTimerFired(s).state, Some(u), now).events
  {
  }

  // ---------------------------------------------------------- deep links

  /** `p` occurs in `s` starting at position `j`. */
  predicate OccursAt(s: string, p: string, j: int) {
    0 <= j <= |s| - |p| && s[j..j + |p|] == p
  }

  /** `s.indexOf(p)`: the first position where `p` occurs, or -1. */
  function IndexOf(s: string, p: string): (i: int)
    ensures i == -1 || OccursAt(s, p, i)
    ensures forall j :: 0 <= j && (i == -1 || j < i) ==> !OccursAt(s, p, j)
    decreases |s|
  {
    if |p| > |s| then -1
    else if s[..|p|] == p then 0
    else
      var k := IndexOf(s[1..], p);
      forall j | 1 <= j ensures OccursAt(s, p, j) <==> OccursAt(s[1..], p, j - 1) {
        if j <= |s| - |p| {
          var shifted, direct := s[1..][j - 1..j - 1 + |p|], s[j..j + |p|];
          assert forall t :: 0 <= t < |p| ==> shifted[t] == direct[t];
          assert shifted == direct;
        }
      }
      assert !OccursAt(s, p, 0);
      if k == -1 then -1 else k + 1
  }

  /** `s.indexOf(p) === 0`. */
  predicate StartsWith(s: string, p: string) {
    IndexOf(s, p) == 0
  }

  lemma StartsWithIsPrefix(s: string, p: string)
    ensures StartsWith(s, p) <==> |p| <= |s| && s[..|p|] == p
  {
  }

  datatype LinkMessage = LinkMessage(command: string, code: string, state: Option<string>)

  /** `processDeepLink`, on a link whose query has already been split into its `code` and
      `state` parameters. Without a code nothing is sent. A duo callback is sent even without
      a state; any other link needs one. A LastPass import or SSO callback prefix names the
      message; a link that matches no prefix is still sent, with an empty name. */
  function ProcessDeepLink(url: string, code: Option<string>, state: Option<string>): (m: Option<LinkMessage>)
    ensures code.None? ==> m.None?
    ensures code.Some? && StartsWith(url, DuoCallback) ==> m == Some(LinkMessage("duoCallback", code.value, state))
    ensures code.Some? && !StartsWith(url, DuoCallback) && state.None? ==> m.None?
    ensures m.Some? ==> m.value.code == code.value && m.value.state == state
    ensures code.Some? && state.Some? && StartsWith(url, ImportCallbackLastPass) ==>
      m == Some(LinkMessage("importCallbackLastPass", code.value, state))
    ensures code.Some? && state.Some? && StartsWith(url, SsoCallback) ==>
      m == Some(LinkMessage("ssoCallback", code.value, state))
    ensures code.Some? && state.Some? && !StartsWith(url, DuoCallback)
            && !StartsWith(url, ImportCallbackLastPass) && !StartsWith(url, SsoCallback) ==>
      m == Some(LinkMessage("", code.value, state))
    ensures m.Some? && m.value.command == "" ==>
      !StartsWith(url, DuoCallback) && !StartsWith(url, ImportCallbackLastPass) && !StartsWith(url, SsoCallback)
  {
    if code.None? then None
    else
      var duo := StartsWith(url, DuoCallback);
      if !duo && state.None? then None
      else
        var named := if duo then "duoCallback" else "";
        var command :=
          if StartsWith(url, ImportCallbackLastPass) then "importCallbackLastPass"
          else if StartsWith(url, SsoCallback) then "ssoCallback"
          else named;
        CallbackPrefixesAreExclusive(url);
        Some(LinkMessage(command, code.value, state))
  }

  /** The three callback prefixes exclude one another, so a duo link keeps its name. */
  lemma CallbackPrefixesAreExclusive(url: string)
    ensures StartsWith(url, DuoCallback) ==> !StartsWith(url, ImportCallbackLastPass) && !StartsWith(url, SsoCallback)
    ensures StartsWith(url, ImportCallbackLastPass) ==> !StartsWith(url, SsoCallback)
  {
    StartsWithIsPrefix(url, DuoCallback);
    StartsWithIsPrefix(url, ImportCallbackLastPass);
    StartsWithIsPrefix(url, SsoCallback);
    if StartsWith(url, DuoCallback) {
      assert url[12] == DuoCallback[12] == 'd';
    }
    if StartsWith(url, ImportCallbackLastPass) {
      assert url[12] == ImportCallbackLastPass[12] == 'i';
    }
  }
}

=== FILE: records.dfy ===
/** A JavaScript object used as a string-keyed dictionary (`Record<string, V>`).
    Such an object remembers the order in which its keys were first assigned, and
    `Object.values` enumerates in that order; so the model keeps an ordered list of
    entries and offers `ToMap` as the plain dictionary view of it. */
module Records {
  import opened Wrappers

  datatype Entry<V> = Entry(key: string, value: V)

  type Rec<V> = seq<Entry<V>>

  /** The property name JavaScript uses for a key that may be undefined. */
  function PropertyKey(k: Option<string>): (name: string)
    ensures k.Some? ==> name == k.value
  {
    k.GetOr("undefined")
  }

  function Keys<V>(r: Rec<V>): set<string> {
    if r == [] then {} else {r[0].key} + Keys(r[1..])
  }

  /** The key of every entry is one of the record's keys. */
  lemma {:induction false} EntryKeyInKeys<V>(r: Rec<V>, i: int)
    requires 0 <= i < |r|
    ensures r[i].key in Keys(r)
    decreases |r|
  {
    if i > 0 {
      EntryKeyInKeys(r[1..], i - 1);
    }
  }

  /** No key occurs twice: every record built by the operations below keeps this. */
  predicate UniqueKeys<V>(r: Rec<V>) {
    r == [] || (r[0].key !in Keys(r[1..]) && UniqueKeys(r[1..]))
  }

  /** `Object.values(r)`. */
  function Values<V>(r: Rec<V>): (vs: seq<V>)
    ensures |vs| == |r|
    ensures forall i :: 0 <= i < |r| ==> vs[i] == r[i].value
  {
    if r == [] then [] else [r[0].value] + Values(r[1..])
  }

  /** The dictionary a record denotes; an earlier entry wins over a later one with the same key. */
  function ToMap<V>(r: Rec<V>): (m: map<string, V>)
    ensures m.Keys == Keys(r)
  {
    if r == [] then map[] else ToMap(r[1..])[r[0].key := r[0].value]
  }

  /** `r[k] = v`: overwrites an existing key in place, otherwise appends a new entry. */
  function Put<V>(r: Rec<V>, k: string, v: V): (r': Rec<V>)
    ensures ToMap(r') == ToMap(r)[k := v]
    ensures Keys(r') == Keys(r) + {k}
    ensures |r'| == if k in Keys(r) then |r| else |r| + 1
    ensures k !in Keys(r) ==> r' == r + [Entry(k, v)]
    ensures UniqueKeys(r) && k in Keys(r) ==>
      |r'| == |r| && forall i :: 0 <= i < |r| ==> r'[i] == (if r[i].key == k then Entry(k, v) else r[i])
    ensures UniqueKeys(r) ==> UniqueKeys(r')
  {
    if r == [] then [Entry(k, v)]
    else if r[0].key == k then
      var r' := [Entry(k, v)] + r[1..];
      forall i | 0 < i < |r| && UniqueKeys(r) ensures r[i].key != k {
        EntryKeyInKeys(r[1..], i - 1);
      }
      r'
    else
      var tail := Put(r[1..], k, v);
      var r' := [r[0]] + tail;
      assert r'[0] == r[0] && r'[1..] == tail;
      assert ToMap(r') == ToMap(tail)[r[0].key := r[0].value];
      assert ToMap(r') == ToMap(r)[k := v] by {
        var m := ToMap(r[1..]);
        assert ToMap(tail) == m[k := v];
        UpdatesCommute(m, k, v, r[0].key, r[0].value);
      }
      assert k !in Keys(r) ==> r' == r + [Entry(k, v)] by {
        if k !in Keys(r) {
          assert r == [r[0]] + r[1..];
        }
      }
      r'
  }

  /** Two updates of different keys can be made in either order. */
  lemma UpdatesCommute<K, V>(m: map<K, V>, k1: K, v1: V, k2: K, v2: V)
    requires k1 != k2
    ensures m[k1 := v1][k2 := v2] == m[k2 := v2][k1 := v1]
  {
  }

  /** Updating a key and then merging equals merging the update into the merged map. */
  lemma UpdateThenMerge<K, V>(m: map<K, V>, k: K, v: V, a: map<K, V>)
    ensures m[k := v] + a == m + (map[k := v] + a)
  {
  }

  /** The dictionary a run of assignments `o[k] = v` writes: a later assignment to a key wins. */
  function Assigned<V>(es: Rec<V>): (m: map<string, V>)
    ensures m.Keys == Keys(es)
  {
    if es == [] then map[] else map[es[0].key := es[0].value] + Assigned(es[1..])
  }

  /** Assigns every entry of `es` in turn, as a `forEach` over an array would. */
  function PutAll<V>(r: Rec<V>, es: Rec<V>): (r': Rec<V>)
    ensures ToMap(r') == ToMap(r) + Assigned(es)
    ensures Keys(r') == Keys(r) + Keys(es)
    ensures UniqueKeys(r) ==> UniqueKeys(r')
    decreases |es|
  {
    if es == [] then r
    else
      var r' := PutAll(Put(r, es[0].key, es[0].value), es[1..]);
      UpdateThenMerge(ToMap(r), es[0].key, es[0].value, Assigned(es[1..]));
      r'
  }

  /** `delete r[k]` (a no-op when `k` is absent); the other entries keep their order. */
  function Remove<V>(r: Rec<V>, k: string): (r': Rec<V>)
    ensures Keys(r') == Keys(r) - {k}
    ensures forall x :: x in ToMap(r) && x != k ==> ToMap(r')[x] == ToMap(r)[x]
    ensures k !in Keys(r) ==> r' == r
    ensures UniqueKeys(r) ==> UniqueKeys(r')
  {
    if r == [] then []
    else if r[0].key == k then Remove(r[1..], k)
    else
      var r' := [r[0]] + Remove(r[1..], k);
      assert r'[1..] == Remove(r[1..], k);
      r'
  }

  /** Deletes each key of `ks` in turn. */
  function RemoveAll<V>(r: Rec<V>, ks: seq<string>): (r': Rec<V>)
    ensures Keys(r') == Keys(r) - set k | k in ks
    ensures forall x :: x in ToMap(r) && x !in ks ==> ToMap(r')[x] == ToMap(r)[x]
    ensures UniqueKeys(r) ==> UniqueKeys(r')
    decreases |ks|
  {
    if ks == [] then r
    else
      assert (set k | k in ks) == {ks[0]} + set k | k in ks[1..] by {
        assert ks == [ks[0]] + ks[1..];
      }
      RemoveAll(Remove(r, ks[0]), ks[1..])
  }
}

=== FILE: sorting.dfy ===
/** Sorting under an abstract comparator. The locale-aware name collation used for
    tag views is not modelled; it is any relation `le` ("sorts no later than"), and
    sortedness is promised whenever `le` is a total preorder. */
module Sorting {

  ghost predicate TotalPreorder<T(!new)>(le: (T, T) -> bool) {
    && (forall a, b :: le(a, b) || le(b, a))
    && (forall a, b, c :: le(a, b) && le(b, c) ==> le(a, c))
  }

  predicate SortedBy<T>(s: seq<T>, le: (T, T) -> bool) {
    forall i, j :: 0 <= i < j < |s| ==> le(s[i], s[j])
  }

  /** An element that sorts no later than everything in a sorted sequence may go first. */
  lemma {:induction false} SortedCons<T>(h: T, t: seq<T>, le: (T, T) -> bool)
    requires SortedBy(t, le)
    requires forall y :: y in t ==> le(h, y)
    ensures SortedBy([h] + t, le)
  {
    var r := [h] + t;
    forall i, j | 0 <= i < j < |r| ensures le(r[i], r[j]) {
      assert r[j] == t[j - 1];
      if i == 0 {
        assert t[j - 1] in t;
      } else {
        assert r[i] == t[i - 1];
      }
    }
  }

  /** Places `x` before the first element it sorts no later than. */
  function Insert<T(==,!new)>(x: T, s: seq<T>, le: (T, T) -> bool): (r: seq<T>)
    ensures multiset(r) == multiset(s) + multiset{x}
    ensures |r| == |s| + 1
    ensures forall y :: y in r ==> y == x || y in s
    ensures TotalPreorder(le) && SortedBy(s, le) ==> SortedBy(r, le)
  {
    if s == [] then [x]
    else if le(x, s[0]) then
      assert s == [s[0]] + s[1..];
      assert TotalPreorder(le) && SortedBy(s, le) ==> SortedBy([x] + s, le) by {
        if TotalPreorder(le) && SortedBy(s, le) {
          forall y | y in s ensures le(x, y) {
            var k :| 0 <= k < |s| && s[k] == y;
            if k > 0 {
              assert le(s[0], s[k]);
            }
          }
          SortedCons(x, s, le);
        }
      }
      [x] + s
    else
      var tail := Insert(x, s[1..], le);
      assert s == [s[0]] + s[1..];
      assert TotalPreorder(le) && SortedBy(s, le) ==> SortedBy([s[0]] + tail, le) by {
        if TotalPreorder(le) && SortedBy(s, le) {
          assert le(s[0], x);
          assert SortedBy(s[1..], le) by {
            forall i, j | 0 <= i < j < |s[1..]| ensures le(s[1..][i], s[1..][j]) {
              assert s[1..][i] == s[i + 1] && s[1..][j] == s[j + 1];
            }
          }
          forall y | y in tail ensures le(s[0], y) {
            if y != x {
              var k :| 0 <= k < |s[1..]| && s[1..][k] == y;
              assert s[k + 1] == y;
            }
          }
          SortedCons(s[0], tail, le);
        }
      }
      [s[0]] + tail
  }

  /** An insertion sort: each element is inserted into the sorted rest. */
  function InsertionSort<T(==,!new)>(s: seq<T>, le: (T, T) -> bool): (r: seq<T>)
    ensures multiset(r) == multiset(s)
    ensures |r| == |s|
    ensures TotalPreorder(le) ==> SortedBy(r, le)
  {
    if s == [] then []
    else
      assert s == [s[0]] + s[1..];
      Insert(s[0], InsertionSort(s[1..], le), le)
  }
}

=== FILE: sync.dfy ===
/** The decision logic of one full sync pass: whether a pass is needed, the fixed
    order of the steps it runs, when the last-sync time is recorded, and how a
    failure surfaces. Server responses, the clock and the outcome of each step are
    inputs; what the pass does is recorded as an ordered trace of events. */
module SyncPass {
  import opened Wrappers
  import SP = SyncProfile

  datatype AuthStatus = LoggedOut | Locked | Unlocked

  /** The numeric values of the authentication status enum. */
  function Ordinal(a: AuthStatus): int {
    match a
    case LoggedOut => 0
    case Locked => 1
    case Unlocked => 2
  }

  /** The result of `needsSyncing`: whether the revision date was requested, whether the
      logout callback was invoked for a deleted account, and the answer or the error. */
  datatype NeedsCheck = NeedsCheck(fetchedRevision: bool, accountDeleted: bool, result: Result<bool>)

  /** `needsSyncing`: a forced pass, or one with no last-sync time (or the zero time), is
      always needed without asking the server. Otherwise the account revision date is
      fetched; a negative one invokes the logout callback, if any, with "accountDeleted", and
      the comparison still runs: a pass is needed exactly when the revision is later than the
      last sync. Times are milliseconds since the epoch. */
  function NeedsSyncing(force: bool, lastSync: Option<int>, revision: Remote<int>, hasLogoutCallback: bool)
    : (n: NeedsCheck)
    ensures force || lastSync.None? || lastSync.value == 0 ==> n == NeedsCheck(false, false, Success(true))
    ensures !force && lastSync.Some? && lastSync.value != 0 ==> n.fetchedRevision
    ensures n.accountDeleted <==>
      !force && lastSync.Some? && lastSync.value != 0 && revision.Resolved? && revision.response < 0 && hasLogoutCallback
    ensures n.result.Failure? <==> !force && lastSync.Some? && lastSync.value != 0 && revision.Rejected?
    ensures n.result.Failure? ==> n.result.error == revision.reason
    ensures n.result == Success(false) <==>
      !force && lastSync.Some? && lastSync.value != 0 && revision.Resolved? && revision.response <= lastSync.value
  {
    if force then NeedsCheck(false, false, Success(true))
    else match lastSync
      case None => NeedsCheck(false, false, Success(true))
      case Some(last) =>
        if last == 0 then NeedsCheck(false, false, Success(true))
        else match revision
          case Rejected(reason) => NeedsCheck(true, false, Failure(reason))
          case Resolved(rev) =>
            var deleted := rev < 0 && hasLogoutCallback;
            if rev <= last then NeedsCheck(true, deleted, Success(false))
            else NeedsCheck(true, deleted, Success(true))
  }

  /** A deleted account (negative revision date) with an earlier sync on record asks for a
      logout and, because the comparison still runs, reports that no pass is needed. */
  lemma DeletedAccountLogsOutAndSkips(lastSync: int, revision: int)
    requires lastSync > 0 && revision < 0
    ensures NeedsSyncing(false, Some(lastSync), Resolved(revision), true) == NeedsCheck(true, true, Success(false))
  {
  }

  datatype SyncStep = RefreshToken | FetchSnapshot | Profile | Folders | Collections | Ciphers | Sends | Settings | Policies

  /** Token refresh, the snapshot fetch, then the seven sections in this fixed order. */
  const StepOrder: seq<SyncStep> := [RefreshToken, FetchSnapshot, Profile, Folders, Collections, Ciphers, Sends, Settings, Policies]

  datatype SyncEvent =
    | Started
    | RevisionFetched
    | LogoutRequested(reason: SP.LogoutReason)
    | Ran(step: SyncStep)
    | LastSyncSet(at: int)
    | Completed(successful: bool)

  /** `fullSync` either resolves to a boolean or rejects with an error. */
  datatype SyncOutcome = Returned(value: bool) | Threw(error: string)

  datatype SyncRun = SyncRun(events: seq<SyncEvent>, outcome: SyncOutcome)

  /** The steps attempted and the error of the one that failed, if any. */
  datatype StepsRun = StepsRun(ran: seq<SyncStep>, error: Option<string>)

  /** Runs the steps in order, stopping at the first that fails; `failures` gives the error
      each failing step raises. */
  function RunSteps(steps: seq<SyncStep>, failures: map<SyncStep, string>): (r: StepsRun)
    ensures |r.ran| <= |steps| && r.ran == steps[..|r.ran|]
    ensures r.error.None? <==> forall s :: s in steps ==> s !in failures
    ensures r.error.None? ==> r.ran == steps
    ensures r.error.Some? ==>
      && |r.ran| > 0
      && r.ran[|r.ran| - 1] in failures
      && r.error.value == failures[r.ran[|r.ran| - 1]]
      && forall s :: s in r.ran[..|r.ran| - 1] ==> s !in failures
  {
    if steps == [] then StepsRun([], None)
    else if steps[0] in failures then StepsRun([steps[0]], Some(failures[steps[0]]))
    else
      var rest := RunSteps(steps[1..], failures);
      var r := StepsRun([steps[0]] + rest.ran, rest.error);
      assert steps == [steps[0]] + steps[1..];
      assert rest.error.Some? ==> r.ran[..|r.ran| - 1] == [steps[0]] + rest.ran[..|rest.ran| - 1];
      r
  }

  /** The steps named by the `Ran` events of a trace, in order. */
  function StepsOf(es: seq<SyncEvent>): seq<SyncStep> {
    if es == [] then [] else (if es[0].Ran? then [es[0].step] else []) + StepsOf(es[1..])
  }

  function RanEvents(steps: seq<SyncStep>): (es: seq<SyncEvent>)
    ensures |es| == |steps|
    ensures forall i :: 0 <= i < |es| ==> es[i] == Ran(steps[i])
  {
    seq(|steps|, i requires 0 <= i < |steps| => Ran(steps[i]))
  }

  lemma {:induction false} StepsOfAppend(a: seq<SyncEvent>, b: seq<SyncEvent>)
    ensures StepsOf(a + b) == StepsOf(a) + StepsOf(b)
    decreases |a|
  {
    if a == [] {
      assert a + b == b;
    } else {
      assert (a + b)[0] == a[0] && (a + b)[1..] == a[1..] + b;
      StepsOfAppend(a[1..], b);
    }
  }

  lemma {:induction false} StepsOfRanEvents(steps: seq<SyncStep>)
    ensures StepsOf(RanEvents(steps)) == steps
    decreases |steps|
  {
    if steps != [] {
      assert RanEvents(steps)[1..] == RanEvents(steps[1..]);
      StepsOfRanEvents(steps[1..]);
    }
  }

  /** A trace with no `Ran` event names no step. */
  lemma {:induction false} StepsOfNoRuns(es: seq<SyncEvent>)
    requires forall i :: 0 <= i < |es| ==> !es[i].Ran?
    ensures StepsOf(es) == []
    decreases |es|
  {
    if es != [] {
      StepsOfNoRuns(es[1..]);
    }
  }

  /** The events before the check's answer is acted on: the start, then the revision
      request and the deleted-account logout, when they happen. */
  function Opening(n: NeedsCheck): (es: seq<SyncEvent>)
    ensures |es| >= 1 && es[0] == Started
    ensures forall i :: 0 <= i < |es| ==> !es[i].Ran? && !es[i].LastSyncSet? && !es[i].Completed?
    ensures RevisionFetched in es <==> n.fetchedRevision
    ensures LogoutRequested(SP.AccountDeleted) in es <==> n.accountDeleted
  {
    [Started]
    + (if n.fetchedRevision then [RevisionFetched] else [])
    + (if n.accountDeleted then [LogoutRequested(SP.AccountDeleted)] else [])
  }

  /** The part of a needed pass after the check: the steps attempted, then either the
      last-sync time and a successful completion, or an unsuccessful completion and the error. */
  function StepsPhase(steps: StepsRun, allowThrow: bool, now: int): (run: SyncRun)
    ensures |run.events| >= 1
    ensures forall i :: 0 <= i < |run.events| ==> run.events[i].Ran? || run.events[i].LastSyncSet? || run.events[i].Completed?
    ensures run.events[|run.events| - 1] == Completed(run.outcome == Returned(true))
    ensures StepsOf(run.events) == steps.ran
    ensures run.outcome == Returned(true) <==> steps.error.None?
    ensures LastSyncSet(now) in run.events <==> steps.error.None?
    ensures steps.error.Some? ==> run.outcome == (if allowThrow then Threw(steps.error.value) else Returned(false))
    ensures LastSyncSet(now) in run.events ==> |run.events| >= 2 && run.events[|run.events| - 2] == LastSyncSet(now)
  {
    var ran := RanEvents(steps.ran);
    var tail := if steps.error.None? then [LastSyncSet(now), Completed(true)] else [Completed(false)];
    StepsOfRanEvents(steps.ran);
    StepsOfNoRuns(tail);
    StepsOfAppend(ran, tail);
    assert LastSyncSet(now) !in ran;
    var outcome :=
      if steps.error.None? then Returned(true)
      else if allowThrow then Threw(steps.error.value)
      else Returned(false);
    SyncRun(ran + tail, outcome)
  }

  /** What a pass does after the needs-sync check, by the check's answer. */
  function AfterCheck(n: NeedsCheck, steps: StepsRun, allowThrow: bool, now: int): (run: SyncRun)
    ensures |run.events| >= 1
    ensures forall i :: 0 <= i < |run.events| ==> run.events[i].Ran? || run.events[i].LastSyncSet? || run.events[i].Completed?
    ensures run.events[|run.events| - 1] == Completed(run.outcome == Returned(true))
    ensures LastSyncSet(now) in run.events ==> |run.events| >= 2 && run.events[|run.events| - 2] == LastSyncSet(now)
    ensures n.result.Failure? && allowThrow ==>
      run.outcome == Threw(n.result.error) && LastSyncSet(now) !in run.events && StepsOf(run.events) == []
    ensures n.result == Success(false) || (n.result.Failure? && !allowThrow) ==>
      run.outcome == Returned(false) && LastSyncSet(now) in run.events && StepsOf(run.events) == []
    ensures n.result == Success(true) ==>
      && StepsOf(run.events) == steps.ran
      && (run.outcome == Returned(true) <==> steps.error.None?)
      && (LastSyncSet(now) in run.events <==> steps.error.None?)
      && (steps.error.Some? ==> run.outcome == (if allowThrow then Threw(steps.error.value) else Returned(false)))
  {
    if n.result.Failure? && allowThrow then
      StepsOfNoRuns([Completed(false)]);
      SyncRun([Completed(false)], Threw(n.result.error))
    else if n.result.Failure? || n.result == Success(false) then
      StepsOfNoRuns([LastSyncSet(now), Completed(false)]);
      SyncRun([LastSyncSet(now), Completed(false)], Returned(false))
    else
      StepsPhase(steps, allowThrow, now)
  }

  /** Putting the start and check events in front of the rest of a pass keeps the facts
      the rest establishes. */
  lemma PrefixedTrace(pre: seq<SyncEvent>, rest: seq<SyncEvent>, now: int)
    requires |pre| >= 1 && pre[0] == Started
    requires forall i :: 0 <= i < |pre| ==> !pre[i].Ran? && !pre[i].LastSyncSet? && !pre[i].Completed?
    requires |rest| >= 1
    requires forall i :: 0 <= i < |rest| ==> rest[i].Ran? || rest[i].LastSyncSet? || rest[i].Completed?
    requires LastSyncSet(now) in rest ==> |rest| >= 2 && rest[|rest| - 2] == LastSyncSet(now)
    ensures var es := pre + rest;
      && |es| >= 2 && es[0] == Started && es[|es| - 1] == rest[|rest| - 1]
      && StepsOf(es) == StepsOf(rest)
      && (LastSyncSet(now) in es <==> LastSyncSet(now) in rest)
      && (LastSyncSet(now) in es ==> es[|es| - 2] == LastSyncSet(now))
      && (LogoutRequested(SP.AccountDeleted) in es <==> LogoutRequested(SP.AccountDeleted) in pre)
  {
    StepsOfNoRuns(pre);
    StepsOfAppend(pre, rest);
    var es := pre + rest;
    assert LastSyncSet(now) !in pre;
    if LastSyncSet(now) in es {
      assert es[|es| - 2] == rest[|rest| - 2];
    }
  }

  /** `fullSync`. A logged-out account completes unsuccessfully without any check;
      otherwise the start event and the needs-sync check's events come first, then the rest
      of the pass by the check's answer. Every pass ends with a completion event that is
      successful exactly when the pass resolves to true, and a recorded last-sync time is
      always the event just before it. */
  function FullSync(auth: AuthStatus, force: bool, allowThrow: bool, now: int, lastSync: Option<int>,
                    revision: Remote<int>, hasLogoutCallback: bool, failures: map<SyncStep, string>)
    : (run: SyncRun)
    ensures |run.events| >= 2 && run.events[0] == Started
    ensures run.events[|run.events| - 1] == Completed(run.outcome == Returned(true))
    ensures auth == LoggedOut ==> run == SyncRun([Started, Completed(false)], Returned(false))
    ensures LastSyncSet(now) in run.events ==> run.events[|run.events| - 2] == LastSyncSet(now)
  {
    if auth == LoggedOut then SyncRun([Started, Completed(false)], Returned(false))
    else
      var n := NeedsSyncing(force, lastSync, revision, hasLogoutCallback);
      var pre := Opening(n);
      var rest := AfterCheck(n, RunSteps(StepOrder, failures), allowThrow, now);
      PrefixedTrace(pre, rest.events, now);
      SyncRun(pre + rest.events, rest.outcome)
  }

  /** The facts `PrefixedTrace` gives about a pass past the logged-out check. */
  lemma UnfoldPass(auth: AuthStatus, force: bool, allowThrow: bool, now: int, lastSync: Option<int>,
                   revision: Remote<int>, hasLogoutCallback: bool, failures: map<SyncStep, string>)
    requires auth != LoggedOut
    ensures var n := NeedsSyncing(force, lastSync, revision, hasLogoutCallback);
      var run := FullSync(auth, force, allowThrow, now, lastSync, revision, hasLogoutCallback, failures);
      var rest := AfterCheck(n, RunSteps(StepOrder, failures), allowThrow, now);
      && run.outcome == rest.outcome
      && StepsOf(run.events) == StepsOf(rest.events)
      && (LastSyncSet(now) in run.events <==> LastSyncSet(now) in rest.events)
      && (LogoutRequested(SP.AccountDeleted) in run.events <==> n.accountDeleted)
  {
    var n := NeedsSyncing(force, lastSync, revision, hasLogoutCallback);
    var rest := AfterCheck(n, RunSteps(StepOrder, failures), allowThrow, now);
    assert FullSync(auth, force, allowThrow, now, lastSync, revision, hasLogoutCallback, failures)
        == SyncRun(Opening(n) + rest.events, rest.outcome);
    PrefixedTrace(Opening(n), rest.events, now);
  }

  /** A failed needs-sync check runs no step: with `allowThrow` the error propagates and the
      last-sync time is not recorded; without it the pass records the time and resolves to
      false, as if no sync had been needed. */
  lemma FailedCheckSurfaces(auth: AuthStatus, force: bool, allowThrow: bool, now: int, lastSync: Option<int>,
                            revision: Remote<int>, hasLogoutCallback: bool, failures: map<SyncStep, string>)
    requires auth != LoggedOut
    requires NeedsSyncing(force, lastSync, revision, hasLogoutCallback).result.Failure?
    ensures var run := FullSync(auth, force, allowThrow, now, lastSync, revision, hasLogoutCallback, failures);
      && StepsOf(run.events) == []
      && (allowThrow ==> run.outcome == Threw(revision.reason) && LastSyncSet(now) !in run.events)
      && (!allowThrow ==> run.outcome == Returned(false) && LastSyncSet(now) in run.events)
  {
    UnfoldPass(auth, force, allowThrow, now, lastSync, revision, hasLogoutCallback, failures);
  }

  /** A pass that is not needed runs no step, records the last-sync time and resolves to false. */
  lemma UnneededPassRecordsTime(auth: AuthStatus, force: bool, allowThrow: bool, now: int, lastSync: Option<int>,
                                revision: Remote<int>, hasLogoutCallback: bool, failures: map<SyncStep, string>)
    requires auth != LoggedOut
    requires NeedsSyncing(force, lastSync, revision, hasLogoutCallback).result == Success(false)
    ensures var run := FullSync(auth, force, allowThrow, now, lastSync, revision, hasLogoutCallback, failures);
      run.outcome == Returned(false) && LastSyncSet(now) in run.events && StepsOf(run.events) == []
  {
    UnfoldPass(auth, force, allowThrow, now, lastSync, revision, hasLogoutCallback, failures);
  }

  /** A needed pass attempts the steps in order up to the first failure. It records the
      last-sync time and resolves to true exactly when every step succeeded; otherwise the
      failing step's error propagates with `allowThrow` and the pass resolves to false without. */
  lemma NeededPassRunsSteps(auth: AuthStatus, force: bool, allowThrow: bool, now: int, lastSync: Option<int>,
                            revision: Remote<int>, hasLogoutCallback: bool, failures: map<SyncStep, string>)
    requires auth != LoggedOut
    requires NeedsSyncing(force, lastSync, revision, hasLogoutCallback).result == Success(true)
    ensures var run := FullSync(auth, force, allowThrow, now, lastSync, revision, hasLogoutCallback, failures);
      var steps := RunSteps(StepOrder, failures);
      && StepsOf(run.events) == steps.ran
      && (run.outcome == Returned(true) <==> forall s :: s in StepOrder ==> s !in failures)
      && (LastSyncSet(now) in run.events <==> forall s :: s in StepOrder ==> s !in failures)
      && (steps.error.Some? ==> run.outcome == (if allowThrow then Threw(steps.error.value) else Returned(false)))
  {
    UnfoldPass(auth, force, allowThrow, now, lastSync, revision, hasLogoutCallback, failures);
  }

  /** The pass asks for an "accountDeleted" logout exactly when the check saw a negative
      revision date and a logout callback is registered. */
  lemma DeletedAccountRequestsLogout(auth: AuthStatus, force: bool, allowThrow: bool, now: int, lastSync: Option<int>,
                                     revision: Remote<int>, hasLogoutCallback: bool, failures: map<SyncStep, string>)
    ensures var run := FullSync(auth, force, allowThrow, now, lastSync, revision, hasLogoutCallback, failures);
      LogoutRequested(SP.AccountDeleted) in run.events <==>
        && auth != LoggedOut && !force && lastSync.Some? && lastSync.value != 0
        && revision.Resolved? && revision.response < 0 && hasLogoutCallback
  {
    if auth != LoggedOut {
      UnfoldPass(auth, force, allowThrow, now, lastSync, revision, hasLogoutCallback, failures);
    }
  }

  /** Every pass attempts a prefix of the fixed step order. */
  lemma PassRunsPrefixOfStepOrder(auth: AuthStatus, force: bool, allowThrow: bool, now: int, lastSync: Option<int>,
                                  revision: Remote<int>, hasLogoutCallback: bool, failures: map<SyncStep, string>)
    ensures var steps := StepsOf(FullSync(auth, force, allowThrow, now, lastSync, revision, hasLogoutCallback, failures).events);
      |steps| <= |StepOrder| && steps == StepOrder[..|steps|]
  {
    if auth == LoggedOut {
      assert StepsOf([Started, Completed(false)]) == [];
    } else {
      UnfoldPass(auth, force, allowThrow, now, lastSync, revision, hasLogoutCallback, failures);
    }
  }

  /** Without `allowThrow` a pass always resolves, whatever fails along the way. */
  lemma PassWithoutAllowThrowResolves(auth: AuthStatus, force: bool, now: int, lastSync: Option<int>,
                                      revision: Remote<int>, hasLogoutCallback: bool, failures: map<SyncStep, string>)
    ensures FullSync(auth, force, false, now, lastSync, revision, hasLogoutCallback, failures).outcome.Returned?
  {
    if auth != LoggedOut {
      UnfoldPass(auth, force, false, now, lastSync, revision, hasLogoutCallback, failures);
    }
  }

  /** A failing profile step ends the pass: the sections after it never run, the last-sync
      time is not recorded, and the profile's error propagates or the pass resolves to false. */
  lemma ProfileFailureAbortsPass(auth: AuthStatus, force: bool, allowThrow: bool, now: int, lastSync: Option<int>,
                                 revision: Remote<int>, hasLogoutCallback: bool, failures: map<SyncStep, string>)
    requires auth != LoggedOut
    requires NeedsSyncing(force, lastSync, revision, hasLogoutCallback).result == Success(true)
    requires RefreshToken !in failures && FetchSnapshot !in failures && Profile in failures
    ensures var run := FullSync(auth, force, allowThrow, now, lastSync, revision, hasLogoutCallback, failures);
      && LastSyncSet(now) !in run.events
      && StepsOf(run.events) == [RefreshToken, FetchSnapshot, Profile]
      && run.outcome == (if allowThrow then Threw(failures[Profile]) else Returned(false))
  {
    var steps := RunSteps(StepOrder, failures);
    assert steps == StepsRun([RefreshToken, FetchSnapshot, Profile], Some(failures[Profile])) by {
      assert StepOrder[1..][1..][1..] == StepOrder[3..];
    }
    assert Profile in StepOrder;
    NeededPassRunsSteps(auth, force, allowThrow, now, lastSync, revision, hasLogoutCallback, failures);
  }

  /** A profile whose security stamp no longer matches fails the whole pass: the later
      sections never run and the last-sync time is not recorded. */
  lemma StampMismatchAbortsPass(allowThrow: bool, now: int, lastSync: Option<int>, revision: Remote<int>,
                                hasLogoutCallback: bool, profile: SP.ProfileResponse, storedStamp: Option<string>,
                                options: Option<SP.UserDecryptionOptions>, activeUser: Option<SP.UserId>,
                                needsMigration: bool)
    requires SP.StampMismatch(storedStamp, profile)
    ensures
      var step := SP.SyncProfileStep(profile, storedStamp, hasLogoutCallback, options, activeUser, needsMigration);
      var run := FullSync(Unlocked, true, allowThrow, now, lastSync, revision, hasLogoutCallback,
                          map[Profile := step.result.error]);
      && LastSyncSet(now) !in run.events
      && StepsOf(run.events) == [RefreshToken, FetchSnapshot, Profile]
      && run.outcome == (if allowThrow then Threw(SP.StampChanged) else Returned(false))
  {
    var step := SP.SyncProfileStep(profile, storedStamp, hasLogoutCallback, options, activeUser, needsMigration);
    ProfileFailureAbortsPass(Unlocked, true, allowThrow, now, lastSync, revision, hasLogoutCallback,
                             map[Profile := step.result.error]);
  }
}

=== FILE: sync_profile.dfy ===
/** The profile step of a sync pass and the pure builders the other steps use:
    the security-stamp check, the force-set-password rule, the merge of member and
    provider organisations, the id-keyed maps handed to each `replace`, and the
    equivalent-domain list. Key material and other setters are recorded as an
    ordered trace of effects; their values are not modelled. */
module SyncProfile {
  import opened Wrappers

  type UserId = string

  datatype LogoutReason = AccountDeleted | InvalidSecurityStamp

  function ReasonText(r: LogoutReason): string {
    match r
    case AccountDeleted => "accountDeleted"
    case InvalidSecurityStamp => "invalidSecurityStamp"
  }

  const StampChanged := "Stamp has changed"

  /** The error a property read on null decryption options raises. */
  const MissingDecryptionOptions := "Cannot read properties of null (reading 'trustedDeviceOption')"

  datatype OrganizationUserType = Owner | Admin | User | Custom

  datatype Permissions = Permissions(manageResetPassword: bool)

  datatype ProfileOrganization = ProfileOrganization(id: string, userType: OrganizationUserType, permissions: Option<Permissions>)

  datatype ProviderOrganization = ProviderOrganization(id: string)

  /** The parts of the profile response the model reads. */
  datatype ProfileResponse = ProfileResponse(
    id: UserId,
    securityStamp: Option<string>,
    forcePasswordReset: bool,
    organizations: seq<ProfileOrganization>,
    providerOrganizations: seq<ProviderOrganization>)

  /** `trustedDeviceOption` is compared with `!== undefined`, so null counts as present. */
  datatype DeviceOption = Undefined | Null | Present

  datatype UserDecryptionOptions = UserDecryptionOptions(hasMasterPassword: bool, trustedDeviceOption: DeviceOption)

  datatype ForceSetPasswordReason = AdminForcePasswordReset | TdeUserWithoutPasswordHasPasswordResetPermission

  /** The profile setters, in the order the profile step calls them. */
  datatype Setter =
    | MasterKeyEncryptedUserKey | PrivateKey | ProviderKeys | OrgKeys | AvatarColor
    | EmailVerified | VerifyNewDeviceLogin | HasPremium | UsesKeyConnector

  datatype OrgSource = MemberOrg(member: ProfileOrganization) | ProviderOrg(provider: ProviderOrganization)

  /** `new OrganizationData(response, {isMember, isProviderUser})`. */
  datatype OrganizationData = OrganizationData(source: OrgSource, isMember: bool, isProviderUser: bool)

  datatype ProfileEffect =
    | LogoutRequested(reason: LogoutReason)
    | Wrote(setter: Setter)
    | SecurityStampSet(stamp: Option<string>)
    | ForceReasonSet(force: ForceSetPasswordReason, user: Option<UserId>)
    | MissingOptionsLogged
    | ProvidersSaved
    | OrganizationsReplaced(orgs: map<string, OrganizationData>)
    | ConvertAccountRequiredSet
    | ConvertAccountMessageSent
    | ConvertAccountRequirementRemoved

  /** An effect that writes key material or account state (anything but a logout request). */
  predicate IsWrite(e: ProfileEffect) {
    !e.LogoutRequested?
  }

  datatype ProfileRun = ProfileRun(effects: seq<ProfileEffect>, result: Result<Unit>)

  // ------------------------------------------------------ force-set reason

  predicate GrantsResetPassword(o: ProfileOrganization) {
    o.userType == Admin || o.userType == Owner
    || (o.permissions.Some? && o.permissions.value.manageResetPassword)
  }

  /** The loop over the user's organisations that stops at the first one granting
      the reset-password permission. */
  function HasManageResetPasswordPermission(orgs: seq<ProfileOrganization>): (b: bool)
    ensures b <==> exists i :: 0 <= i < |orgs| && GrantsResetPassword(orgs[i])
  {
    if orgs == [] then false
    else if GrantsResetPassword(orgs[0]) then true
    else
      var rest := HasManageResetPasswordPermission(orgs[1..]);
      assert forall i :: 1 <= i < |orgs| ==> orgs[i] == orgs[1..][i - 1];
      assert rest ==> exists i :: 0 <= i < |orgs| && GrantsResetPassword(orgs[i]) by {
        if rest {
          var i :| 0 <= i < |orgs[1..]| && GrantsResetPassword(orgs[1..][i]);
          assert GrantsResetPassword(orgs[i + 1]);
        }
      }
      rest
  }

  datatype ReasonRun = ReasonRun(effects: seq<ProfileEffect>, result: Result<Unit>)

  /** `setForceSetPasswordReasonIfNeeded`: an admin-forced reset sets that reason for the
      profile's user; then a trusted-device user without a master password who holds the
      reset-password permission in some organisation gets the TDE reason, for the active
      user. Null decryption options are logged and then fail on the property read. */
  function SetForceReasonIfNeeded(profile: ProfileResponse, options: Option<UserDecryptionOptions>,
                                  activeUser: Option<UserId>): (r: ReasonRun)
    ensures forall e :: e in r.effects ==> e.ForceReasonSet? || e == MissingOptionsLogged
    ensures (ForceReasonSet(AdminForcePasswordReset, Some(profile.id)) in r.effects) <==> profile.forcePasswordReset
    ensures profile.forcePasswordReset ==> r.effects[0] == ForceReasonSet(AdminForcePasswordReset, Some(profile.id))
    ensures |r.effects| <= 2
    ensures options.None? ==> |r.effects| > 0 && r.effects[|r.effects| - 1] == MissingOptionsLogged
    ensures options.Some? && ForceReasonSet(TdeUserWithoutPasswordHasPasswordResetPermission, activeUser) in r.effects ==>
      |r.effects| > 0
      && r.effects[|r.effects| - 1] == ForceReasonSet(TdeUserWithoutPasswordHasPasswordResetPermission, activeUser)
    ensures options.None? ==> r.result.Failure? && MissingOptionsLogged in r.effects
    ensures options.Some? ==> r.result.Success? && MissingOptionsLogged !in r.effects
    ensures options.None? ==>
      forall e :: e in r.effects ==> !(e.ForceReasonSet? && e.force == TdeUserWithoutPasswordHasPasswordResetPermission)
    ensures options.Some? ==>
      ((ForceReasonSet(TdeUserWithoutPasswordHasPasswordResetPermission, activeUser) in r.effects)
       <==> (&& options.value.trustedDeviceOption != Undefined
             && !options.value.hasMasterPassword
             && exists i :: 0 <= i < |profile.organizations| && GrantsResetPassword(profile.organizations[i])))
  {
    var admin := if profile.forcePasswordReset then [ForceReasonSet(AdminForcePasswordReset, Some(profile.id))] else [];
    match options
    case None => ReasonRun(admin + [MissingOptionsLogged], Failure(MissingDecryptionOptions))
    case Some(o) =>
      var tde :=
        if o.trustedDeviceOption != Undefined && !o.hasMasterPassword
           && HasManageResetPasswordPermission(profile.organizations)
        then [ForceReasonSet(TdeUserWithoutPasswordHasPasswordResetPermission, activeUser)]
        else [];
      ReasonRun(admin + tde, Success(Unit))
  }

  // --------------------------------------------------- organisation merge

  function MemberIds(orgs: seq<ProfileOrganization>): set<string> {
    set o | o in orgs :: o.id
  }

  function ProviderIds(orgs: seq<ProviderOrganization>): set<string> {
    set o | o in orgs :: o.id
  }

  function OrgId(o: ProfileOrganization): string {
    o.id
  }

  /** The member organisations, each marked member and not provider user, and each built
      from the last response entry with its id. */
  function MemberOrganizations(orgs: seq<ProfileOrganization>): (m: map<string, OrganizationData>)
    ensures m.Keys == MemberIds(orgs)
    ensures forall k :: k in m ==>
      m[k].isMember && !m[k].isProviderUser && m[k].source.MemberOrg? && m[k].source.member.id == k
    ensures forall k :: k in m ==> exists i :: LastWithId(orgs, OrgId, k, i) && m[k].source == MemberOrg(orgs[i])
  {
    var byId := IndexById(orgs, OrgId);
    assert byId.Keys == MemberIds(orgs);
    map k | k in byId :: OrganizationData(MemberOrg(byId[k]), true, false)
  }

  /** Adds the provider organisations: a new id is marked provider user and not member;
      an id already present only gains the provider-user mark. */
  function AddProviderOrganizations(acc: map<string, OrganizationData>, orgs: seq<ProviderOrganization>)
    : (m: map<string, OrganizationData>)
    decreases |orgs|
    ensures m.Keys == acc.Keys + ProviderIds(orgs)
    ensures forall k :: k in acc ==>
      m[k].source == acc[k].source && m[k].isMember == acc[k].isMember
      && m[k].isProviderUser == (acc[k].isProviderUser || k in ProviderIds(orgs))
    ensures forall k :: k in m && k !in acc ==>
      !m[k].isMember && m[k].isProviderUser && m[k].source.ProviderOrg? && m[k].source.provider.id == k
  {
    if orgs == [] then acc
    else
      var o := orgs[0];
      var acc' :=
        if o.id !in acc then acc[o.id := OrganizationData(ProviderOrg(o), false, true)]
        else acc[o.id := acc[o.id].(isProviderUser := true)];
      assert ProviderIds(orgs) == {o.id} + ProviderIds(orgs[1..]) by {
        assert orgs == [o] + orgs[1..];
      }
      assert acc'.Keys == acc.Keys + {o.id};
      assert forall k :: k in acc ==>
        acc'[k].source == acc[k].source && acc'[k].isMember == acc[k].isMember
        && acc'[k].isProviderUser == (acc[k].isProviderUser || k == o.id);
      AddProviderOrganizations(acc', orgs[1..])
  }

  /** `syncProfileOrganizations`: the union of member and provider organisations. An id
      is a member exactly when it is in the member list and a provider user exactly when it
      is in the provider list; a member organisation keeps its member response. */
  function MergeOrganizations(profile: ProfileResponse): (m: map<string, OrganizationData>)
    ensures m.Keys == MemberIds(profile.organizations) + ProviderIds(profile.providerOrganizations)
    ensures forall k :: k in m ==> (m[k].isMember <==> k in MemberIds(profile.organizations))
    ensures forall k :: k in m ==> (m[k].isProviderUser <==> k in ProviderIds(profile.providerOrganizations))
    ensures forall k :: k in m ==> (m[k].source.MemberOrg? <==> k in MemberIds(profile.organizations))
    ensures forall k :: k in MemberIds(profile.organizations) ==>
      exists i :: LastWithId(profile.organizations, OrgId, k, i) && m[k].source == MemberOrg(profile.organizations[i])
    ensures forall k :: k in m && k !in MemberIds(profile.organizations) ==>
      m[k].source == ProviderOrg(ProviderOrganization(k))
  {
    AddProviderOrganizations(MemberOrganizations(profile.organizations), profile.providerOrganizations)
  }

  // ------------------------------------------------------------ profile step

  predicate StampMismatch(stored: Option<string>, profile: ProfileResponse) {
    stored.Some? && Some(stored.value) != profile.securityStamp
  }

  /** The setter calls made once the stamp check has passed, in call order. */
  function ProfileWrites(profile: ProfileResponse): (ws: seq<ProfileEffect>)
    ensures |ws| == 10 && ws[0] == Wrote(MasterKeyEncryptedUserKey)
    ensures SecurityStampSet(profile.securityStamp) in ws
    ensures forall e :: e in ws ==> IsWrite(e)
  {
    [ Wrote(MasterKeyEncryptedUserKey), Wrote(PrivateKey), Wrote(ProviderKeys), Wrote(OrgKeys),
      Wrote(AvatarColor), SecurityStampSet(profile.securityStamp), Wrote(EmailVerified),
      Wrote(VerifyNewDeviceLogin), Wrote(HasPremium), Wrote(UsesKeyConnector) ]
  }

  /** The provider save, the organisation replace and the key-connector migration check. */
  function Completion(orgs: map<string, OrganizationData>, needsMigration: bool): (es: seq<ProfileEffect>)
    ensures forall e :: e in es ==> IsWrite(e)
    ensures OrganizationsReplaced(orgs) in es
    ensures needsMigration <==> ConvertAccountMessageSent in es
  {
    [ProvidersSaved, OrganizationsReplaced(orgs)]
    + if needsMigration then [ConvertAccountRequiredSet, ConvertAccountMessageSent]
      else [ConvertAccountRequirementRemoved]
  }

  /** Everything the profile step does once the stamp check has passed. */
  function AfterStampCheck(profile: ProfileResponse, options: Option<UserDecryptionOptions>,
                           activeUser: Option<UserId>, needsMigration: bool): (r: ProfileRun)
    ensures |r.effects| > 0 && r.effects[0] == Wrote(MasterKeyEncryptedUserKey)
    ensures SecurityStampSet(profile.securityStamp) in r.effects
    ensures forall e :: e in r.effects ==> IsWrite(e)
    ensures r.result.Success? <==> options.Some?
    ensures options.Some? ==> OrganizationsReplaced(MergeOrganizations(profile)) in r.effects
    ensures options.Some? ==> (needsMigration <==> ConvertAccountMessageSent in r.effects)
  {
    var reason := SetForceReasonIfNeeded(profile, options, activeUser);
    var written := ProfileWrites(profile) + reason.effects;
    assert forall e :: e in written ==> IsWrite(e) && e != ConvertAccountMessageSent;
    if reason.result.Failure? then ProfileRun(written, reason.result)
    else
      var effects := written + Completion(MergeOrganizations(profile), needsMigration);
      assert effects[0] == written[0];
      ProfileRun(effects, Success(Unit))
  }

  /** `syncProfile`: a stored stamp that differs from the server's requests an
      "invalidSecurityStamp" logout and fails before anything is written; a null stored stamp
      is accepted. Otherwise the setters run, then the force-set-password rule, the provider
      save, the organisation replace and the key-connector migration check. */
  function SyncProfileStep(profile: ProfileResponse, storedStamp: Option<string>, hasLogoutCallback: bool,
                           options: Option<UserDecryptionOptions>, activeUser: Option<UserId>,
                           needsMigration: bool): (r: ProfileRun)
    ensures StampMismatch(storedStamp, profile) ==>
      && r.result == Failure(StampChanged)
      && (forall e :: e in r.effects ==> !IsWrite(e))
      && (hasLogoutCallback <==> r.effects == [LogoutRequested(InvalidSecurityStamp)])
      && (!hasLogoutCallback ==> r.effects == [])
    ensures !StampMismatch(storedStamp, profile) ==>
      && |r.effects| > 0 && r.effects[0] == Wrote(MasterKeyEncryptedUserKey)
      && SecurityStampSet(profile.securityStamp) in r.effects
      && (forall e :: e in r.effects ==> IsWrite(e))
      && (r.result.Success? <==> options.Some?)
    ensures !StampMismatch(storedStamp, profile) && options.Some? ==>
      && OrganizationsReplaced(MergeOrganizations(profile)) in r.effects
      && (needsMigration <==> ConvertAccountMessageSent in r.effects)
  {
    if StampMismatch(storedStamp, profile) then
      ProfileRun(if hasLogoutCallback then [LogoutRequested(InvalidSecurityStamp)] else [], Failure(StampChanged))
    else
      AfterStampCheck(profile, options, activeUser, needsMigration)
  }

  // ------------------------------------------------------ replace builders

  /** `items[i]` is the last item whose id is `k`. */
  predicate LastWithId<T>(items: seq<T>, idOf: T -> string, k: string, i: int) {
    0 <= i < |items| && idOf(items[i]) == k && forall j :: i < j < |items| ==> idOf(items[j]) != k
  }

  /** The `{ [id]: data }` map built by `forEach` assignment for folders, collections,
      ciphers, sends and policies: one entry per id, holding the last item with that id. */
  function IndexById<T>(items: seq<T>, idOf: T -> string): (m: map<string, T>)
    ensures m.Keys == set x | x in items :: idOf(x)
    ensures forall k :: k in m ==> exists i :: LastWithId(items, idOf, k, i) && m[k] == items[i]
  {
    if items == [] then map[]
    else
      var rest := IndexById(items[1..], idOf);
      var m := map[idOf(items[0]) := items[0]] + rest;
      assert (set x | x in items :: idOf(x)) == {idOf(items[0])} + (set x | x in items[1..] :: idOf(x)) by {
        assert items == [items[0]] + items[1..];
      }
      forall k | k in m ensures exists i :: LastWithId(items, idOf, k, i) && m[k] == items[i] {
        if k in rest {
          var i :| LastWithId(items[1..], idOf, k, i) && rest[k] == items[1..][i];
          assert LastWithId(items, idOf, k, i + 1);
        } else {
          forall j | 0 < j < |items| ensures idOf(items[j]) != k {
            assert items[j] in items[1..];
          }
          assert LastWithId(items, idOf, k, 0);
        }
      }
      m
  }

  /** `syncPolicies`: a null policy list gives an empty map. */
  function PolicyMap<T>(response: Option<seq<T>>, idOf: T -> string): (m: map<string, T>)
    ensures response.None? ==> m == map[]
    ensures response.Some? ==> m.Keys == set x | x in response.value :: idOf(x)
    ensures response.Some? ==> forall k :: k in m ==> exists i :: LastWithId(response.value, idOf, k, i) && m[k] == response.value[i]
  {
    match response
    case None => map[]
    case Some(ps) => IndexById(ps, idOf)
  }

  // -------------------------------------------------------------- settings

  datatype GlobalDomain = GlobalDomain(domains: seq<string>)

  datatype DomainsResponse = DomainsResponse(
    equivalentDomains: Option<seq<seq<string>>>,
    globalEquivalentDomains: Option<seq<GlobalDomain>>)

  /** The non-empty global domain lists, in order. */
  function NonEmptyGlobals(gs: seq<GlobalDomain>): (r: seq<seq<string>>)
    ensures |r| <= |gs|
    ensures forall x :: x in r ==> |x| > 0 && exists i :: 0 <= i < |gs| && gs[i].domains == x
    ensures forall i :: 0 <= i < |gs| && |gs[i].domains| > 0 ==> gs[i].domains in r
  {
    if gs == [] then []
    else
      var rest := NonEmptyGlobals(gs[1..]);
      assert forall i :: 1 <= i < |gs| ==> gs[i] == gs[1..][i - 1];
      assert forall x :: x in rest ==> exists i :: 0 <= i < |gs| && gs[i].domains == x by {
        forall x | x in rest ensures exists i :: 0 <= i < |gs| && gs[i].domains == x {
          var i :| 0 <= i < |gs[1..]| && gs[1..][i].domains == x;
          assert gs[i + 1].domains == x;
        }
      }
      if |gs[0].domains| > 0 then [gs[0].domains] + rest else rest
  }

  /** Filtering distributes over concatenation, and a single list is kept exactly when it is
      non-empty: together these say the kept lists appear once each, in their original order. */
  lemma {:induction false} NonEmptyGlobalsIsOrderedFilter(a: seq<GlobalDomain>, b: seq<GlobalDomain>, g: GlobalDomain)
    ensures NonEmptyGlobals(a + b) == NonEmptyGlobals(a) + NonEmptyGlobals(b)
    ensures NonEmptyGlobals([g]) == (if |g.domains| > 0 then [g.domains] else [])
    decreases |a|
  {
    assert [g][1..] == [];
    if a == [] {
      assert a + b == b;
    } else {
      assert (a + b)[0] == a[0] && (a + b)[1..] == a[1..] + b;
      NonEmptyGlobalsIsOrderedFilter(a[1..], b, g);
    }
  }

  /** `syncSettings`: the user's equivalent domains, then every non-empty global list in
      order; a null response (or null parts) contributes nothing. */
  function EquivalentDomains(response: Option<DomainsResponse>): (r: seq<seq<string>>)
    ensures response.None? ==> r == []
    ensures response.Some? ==>
      var own := response.value.equivalentDomains.GetOr([]);
      var globals := response.value.globalEquivalentDomains.GetOr([]);
      && |own| <= |r| && r[..|own|] == own
      && r[|own|..] == NonEmptyGlobals(globals)
      && (forall x :: x in r[|own|..] ==> |x| > 0 && exists i :: 0 <= i < |globals| && globals[i].domains == x)
      && (forall i :: 0 <= i < |globals| && |globals[i].domains| > 0 ==> globals[i].domains in r[|own|..])
  {
    match response
    case None => []
    case Some(d) =>
      var own := d.equivalentDomains.GetOr([]);
      var r := own + NonEmptyGlobals(d.globalEquivalentDomains.GetOr([]));
      assert r[..|own|] == own && r[|own|..] == NonEmptyGlobals(d.globalEquivalentDomains.GetOr([]));
      r
  }
}

=== FILE: tag_api.dfy ===
/** The tag API client: each operation makes one remote call first and applies the
    matching local change to the tag service only once that call has succeeded. The
    remote call's outcome is an input; the model records the request it sends. */
module TagApi {
  import opened Wrappers
  import opened TagModels
  import Records
  import TS = TagService

  datatype HttpMethod = Post | Put | Delete

  /** A request to the server: HTTP verb, path and JSON body. */
  datatype ApiRequest = ApiRequest(verb: HttpMethod, path: string, body: Option<TagRequest>)

  /** One API operation: the request sent, the tag state afterwards, and the result. */
  datatype ApiRun<T> = ApiRun(sent: ApiRequest, state: TS.TagState, result: Result<T>)

  /** What `save` returns, with the tag whose id it may have filled in. */
  datatype Saved = Saved(tag: Tag, data: TagData)

  /** `save`: a tag without an id is created with POST `/tags` and takes the id the server
      assigned; a tag with an id is updated with PUT `/tags/{id}`. After the call succeeds,
      a `TagData` built from the response is upserted and returned; a failed call leaves the
      local state untouched. */
  function Save(s: TS.TagState, tag: Tag, u: Option<TS.UserId>, remote: Remote<TagResponse>): (run: ApiRun<Saved>)
    ensures run.sent.body == Some(RequestFromTag(tag))
    ensures tag.id.None? ==> run.sent.verb == Post && run.sent.path == "/tags"
    ensures tag.id.Some? ==> run.sent.verb == Put && run.sent.path == "/tags/" + tag.id.value
    ensures remote.Rejected? ==> run.state == s && run.result == Failure(remote.reason)
    ensures remote.Resolved? ==>
      var data := DataFromResponse(Some(remote.response));
      var local := TS.Upsert(s, TS.OneRecord(data), u);
      && (local.Failure? ==> run.state == s && run.result.Failure?)
      && (local.Success? ==> run.state == local.value && run.result.Success? && run.result.value.data == data)
    ensures run.result.Success? && tag.id.None? ==> run.result.value.tag.id == remote.response.id
    ensures run.result.Success? && tag.id.Some? ==> run.result.value.tag == tag
  {
    var request := RequestFromTag(tag);
    var sent :=
      if tag.id.None? then ApiRequest(Post, "/tags", Some(request))
      else ApiRequest(Put, "/tags/" + tag.id.value, Some(request));
    match remote
    case Rejected(reason) => ApiRun(sent, s, Failure(reason))
    case Resolved(response) =>
      var tag' := if tag.id.None? then tag.(id := response.id) else tag;
      var data := DataFromResponse(Some(response));
      match TS.Upsert(s, TS.OneRecord(data), u)
      case Failure(e) => ApiRun(sent, s, Failure(e))
      case Success(s') => ApiRun(sent, s', Success(Saved(tag', data)))
  }

  /** A successful save leaves the server's record under its id, with the cache emptied. */
  lemma SaveStoresResponse(s: TS.TagState, tag: Tag, u: TS.UserId, response: TagResponse)
    requires response.id.Some?
    ensures var run := Save(s, tag, Some(u), Resolved(response));
      && run.result.Success?
      && TS.Stored(run.state, u).Some?
      && response.id.value in Records.ToMap(TS.Stored(run.state, u).value)
      && Records.ToMap(TS.Stored(run.state, u).value)[response.id.value] == run.result.value.data
      && TS.Cache(run.state, u) == Some([])
  {
  }

  /** `delete`: DELETE `/tags/{id}` first, then the local delete of that id (with its cipher
      reassignment); a failed call leaves the local state untouched. */
  function DeleteTag(s: TS.TagState, id: string, u: Option<TS.UserId>, remote: Remote<Unit>,
                     ciphers: Option<seq<TS.CipherRef>>): (run: ApiRun<seq<TS.CipherRef>>)
    ensures run.sent == ApiRequest(Delete, "/tags/" + id, None)
    ensures remote.Rejected? ==> run.state == s && run.result == Failure(remote.reason)
    ensures remote.Resolved? ==>
      var local := TS.Delete(s, TS.OneId(id), u, ciphers);
      && (local.Failure? ==> run.state == s && run.result.Failure?)
      && (local.Success? ==> run.state == local.value.state && run.result == Success(local.value.upserted))
  {
    var sent := ApiRequest(Delete, "/tags/" + id, None);
    match remote
    case Rejected(reason) => ApiRun(sent, s, Failure(reason))
    case Resolved(_) =>
      match TS.Delete(s, TS.OneId(id), u, ciphers)
      case Failure(e) => ApiRun(sent, s, Failure(e))
      case Success(out) => ApiRun(sent, out.state, Success(out.upserted))
  }

  /** `deleteAll`: DELETE `/tags/all`, then `clear` of the user's tags. */
  function DeleteAll(s: TS.TagState, u: Option<TS.UserId>, remote: Remote<Unit>): (run: ApiRun<Unit>)
    ensures run.sent == ApiRequest(Delete, "/tags/all", None)
    ensures remote.Rejected? ==> run.state == s && run.result == Failure(remote.reason)
    ensures remote.Resolved? && u.Some? ==>
      run.result.Success? && TS.Stored(run.state, u.value) == Some([]) && TS.Cache(run.state, u.value) == Some([])
    ensures remote.Resolved? && u.None? ==> run.state == s && run.result.Failure?
    ensures remote.Resolved? && u.Some? ==> TS.OthersUnchanged(s, run.state, u.value)
    ensures remote.Resolved? && u.Some? ==> run.state == TS.Clear(s, u).value
  {
    var sent := ApiRequest(Delete, "/tags/all", None);
    match remote
    case Rejected(reason) => ApiRun(sent, s, Failure(reason))
    case Resolved(_) =>
      match TS.Clear(s, u)
      case Failure(e) => ApiRun(sent, s, Failure(e))
      case Success(s') => ApiRun(sent, s', Success(Unit))
  }
}

=== FILE: tag_models.dfy ===
/** The three shapes of a tag: `TagData` (the encrypted record as stored and as
    received from the server), `Tag` (the domain object whose name is ciphertext)
    and `TagView` (the decrypted projection shown to the user), plus the request
    bodies sent to the server and the JSON forms the state layer deserialises. */
module TagModels {
  import opened Wrappers

  /** A `Date` built from its ISO-8601 text; serialising it gives that text back. */
  datatype Instant = Instant(iso: string)

  function ParseDate(s: Option<string>): (d: Option<Instant>)
    ensures d.None? <==> s.None?
    ensures d.Some? ==> d.value.iso == s.value
  {
    match s
    case None => None
    case Some(t) => Some(Instant(t))
  }

  /** Ciphertext as carried by an `EncString`. */
  datatype EncString = EncString(encryptedString: string)

  datatype SymmetricKey = SymmetricKey(material: seq<int>)

  /** The encryption service, left uninterpreted: any pair of functions will do. */
  datatype Crypto = Crypto(
    encrypt: (Option<string>, SymmetricKey) -> Option<EncString>,
    decrypt: (Option<EncString>, SymmetricKey) -> Option<string>)

  /** Decrypting under a key undoes encrypting under the same key. */
  ghost predicate RoundTrips(c: Crypto) {
    forall p, k :: c.decrypt(c.encrypt(p, k), k) == p
  }

  /** The server's tag response (its class is not part of this model). */
  datatype TagResponse = TagResponse(id: Option<string>, name: Option<string>, revisionDate: Option<string>)

  datatype TagData = TagData(id: Option<string>, name: Option<string>, revisionDate: Option<string>)

  datatype Tag = Tag(id: Option<string>, name: Option<EncString>, revisionDate: Option<Instant>)

  datatype TagView = TagView(id: Option<string>, name: Option<string>, revisionDate: Option<Instant>)

  /** The JSON form of any of the three shapes: every field is text or absent. */
  datatype TagJson = TagJson(id: Option<string>, name: Option<string>, revisionDate: Option<string>)

  /** Body of POST/PUT `/tags`. */
  datatype TagRequest = TagRequest(name: Option<string>)

  /** Key-rotation payload: the request body plus the tag id. */
  datatype TagWithIdRequest = TagWithIdRequest(name: Option<string>, id: Option<string>)

  // ---------------------------------------------------------------- TagData

  /** `new TagData(response)`: copies the three fields; an absent response leaves them all unset. */
  function DataFromResponse(response: Option<TagResponse>): (d: TagData)
    ensures response.None? ==> d.id.None? && d.name.None? && d.revisionDate.None?
    ensures response.Some? ==>
      d.id == response.value.id && d.name == response.value.name
      && d.revisionDate == response.value.revisionDate
  {
    match response
    case None => TagData(None, None, None)
    case Some(r) => TagData(r.id, r.name, r.revisionDate)
  }

  /** `TagData.fromJSON`: `Object.assign` onto an empty `TagData`. */
  function DataFromJson(j: TagJson): (d: TagData)
    ensures d.id == j.id && d.name == j.name && d.revisionDate == j.revisionDate
  {
    var blank := DataFromResponse(None);
    blank.(id := j.id, name := j.name, revisionDate := j.revisionDate)
  }

  function DataToJson(d: TagData): TagJson {
    TagJson(d.id, d.name, d.revisionDate)
  }

  // -------------------------------------------------------------------- Tag

  /** `new Tag(obj)`: the id is copied verbatim (it is on the not-encrypted list), the
      name is wrapped as ciphertext and the revision date is parsed when present. */
  function TagFromData(obj: Option<TagData>): (t: Tag)
    ensures obj.None? ==> t.id.None? && t.name.None? && t.revisionDate.None?
    ensures obj.Some? ==> t.id == obj.value.id
    ensures obj.Some? ==> (t.name.Some? <==> obj.value.name.Some?)
    ensures obj.Some? && t.name.Some? ==> t.name.value.encryptedString == obj.value.name.value
    ensures obj.Some? ==> (t.revisionDate.None? <==> obj.value.revisionDate.None?)
  {
    match obj
    case None => Tag(None, None, None)
    case Some(d) => Tag(d.id, WrapCipher(d.name), ParseDate(d.revisionDate))
  }

  function WrapCipher(s: Option<string>): Option<EncString> {
    match s
    case None => None
    case Some(c) => Some(EncString(c))
  }

  /** `Tag.decryptWithKey`: the id and revision date carry over, the name is decrypted. */
  function DecryptWithKey(t: Tag, key: SymmetricKey, crypto: Crypto): (v: TagView)
    ensures v.id == t.id && v.revisionDate == t.revisionDate
    ensures v.name == crypto.decrypt(t.name, key)
  {
    var shell := ViewFromTag(Some(t));
    shell.(name := crypto.decrypt(t.name, key))
  }

  /** `Tag.fromJSON`: a null revision date stays null, the name is deserialised as ciphertext. */
  function TagFromJson(j: TagJson): (t: Tag)
    ensures t.id == j.id
    ensures t.revisionDate.None? <==> j.revisionDate.None?
    ensures t.name.None? <==> j.name.None?
  {
    Tag(j.id, WrapCipher(j.name), ParseDate(j.revisionDate))
  }

  /** Deserialising a stored record's JSON gives the same domain object as constructing it. */
  lemma TagFromJsonAgreesWithConstructor(d: TagData)
    ensures TagFromJson(DataToJson(d)) == TagFromData(Some(d))
  {
  }

  // ---------------------------------------------------------------- TagView

  /** `new TagView()`: every field null. This is the shape of the "no tag" sentinel. */
  function DefaultView(): (v: TagView)
    ensures v.id.None? && v.name.None? && v.revisionDate.None?
  {
    ViewFromTag(None)
  }

  /** `new TagView(tag)`: copies the id and revision date, leaves the name null. */
  function ViewFromTag(t: Option<Tag>): (v: TagView)
    ensures t.None? ==> v == TagView(None, None, None)
    ensures t.Some? ==> v.id == t.value.id && v.revisionDate == t.value.revisionDate && v.name.None?
  {
    match t
    case None => TagView(None, None, None)
    case Some(f) => TagView(f.id, None, f.revisionDate)
  }

  /** `TagView.fromJSON`. */
  function ViewFromJson(j: TagJson): (v: TagView)
    ensures v.id == j.id && v.name == j.name
    ensures v.revisionDate == ParseDate(j.revisionDate)
  {
    DefaultView().(id := j.id, name := j.name, revisionDate := ParseDate(j.revisionDate))
  }

  function ViewToJson(v: TagView): TagJson {
    TagJson(v.id, v.name, match v.revisionDate case None => None case Some(d) => Some(d.iso))
  }

  /** A view survives a trip through JSON unchanged. */
  lemma ViewJsonRoundTrip(v: TagView)
    ensures ViewFromJson(ViewToJson(v)) == v
  {
  }

  // --------------------------------------------------------------- requests

  /** `new TagRequest(tag)`: only the name's ciphertext, or null when the tag has no name. */
  function RequestFromTag(t: Tag): (r: TagRequest)
    ensures r.name.Some? <==> t.name.Some?
    ensures t.name.Some? ==> r.name == Some(t.name.value.encryptedString)
  {
    TagRequest(match t.name case None => None case Some(e) => Some(e.encryptedString))
  }

  /** `new TagWithIdRequest(tag)`. */
  function WithIdRequestFromTag(t: Tag): (r: TagWithIdRequest)
    ensures r.id == t.id
    ensures r.name == RequestFromTag(t).name
  {
    TagWithIdRequest(RequestFromTag(t).name, t.id)
  }
}

=== FILE: tag_service.dfy ===
/** The tag service: a per-user encrypted record map (the source of truth) and a
    per-user decrypted view cache derived from it. `upsert`, `replace` and `delete` empty
    the cache before writing the records; `clear` writes the records first and empties the
    cache second. Once a mutation has finished, the next read decrypts afresh;
    a read serves a non-empty cache as is and otherwise decrypts, sorts by name,
    appends the "no tag" sentinel and caches the result. */
module TagService {
  import opened Wrappers
  import opened Records
  import opened Sorting
  import opened TagModels
  import opened TagStateKeys

  type UserId = string

  /** What the state provider holds for the two tag keys, per user. A user absent
      from a map has no value stored under that key (null). */
  datatype TagState = TagState(encrypted: map<UserId, Rec<TagData>>, decrypted: map<UserId, seq<TagView>>)

  const UserIdRequired := "User ID is required."
  const NewKeyRequired := "New user key is required for rotation."

  function Stored(s: TagState, u: UserId): Option<Rec<TagData>> {
    if u in s.encrypted then Some(s.encrypted[u]) else None
  }

  function Cache(s: TagState, u: UserId): Option<seq<TagView>> {
    if u in s.decrypted then Some(s.decrypted[u]) else None
  }

  /** Nothing stored for any other user changed. */
  ghost predicate OthersUnchanged(s: TagState, s': TagState, u: UserId) {
    forall v :: v != u ==> Stored(s', v) == Stored(s, v) && Cache(s', v) == Cache(s, v)
  }

  /** Every record sits under its own id. */
  predicate WellKeyed(r: Rec<TagData>) {
    forall i :: 0 <= i < |r| ==> r[i].value.id == Some(r[i].key)
  }

  /** The assignments `tags[f.id] = f` that an upsert of `ds` performs. */
  function Entries(ds: seq<TagData>): (es: Rec<TagData>)
    ensures |es| == |ds|
    ensures forall i :: 0 <= i < |ds| ==> es[i] == Entry(PropertyKey(ds[i].id), ds[i])
  {
    seq(|ds|, i requires 0 <= i < |ds| => Entry(PropertyKey(ds[i].id), ds[i]))
  }

  // ------------------------------------------------------------- mutations

  /** `clearDecryptedTagState`: empties the cache of `u`; the records are not touched. */
  function ClearDecryptedTagState(s: TagState, u: Option<UserId>): (r: Result<TagState>)
    ensures u.None? <==> r.Failure?
    ensures u.None? ==> r.error == UserIdRequired
    ensures u.Some? ==> r.value.encrypted == s.encrypted && Cache(r.value, u.value) == Some([])
    ensures u.Some? ==> OthersUnchanged(s, r.value, u.value)
  {
    match u
    case None => Failure(UserIdRequired)
    case Some(id) => Success(s.(decrypted := s.decrypted[id := []]))
  }

  /** The argument of `upsert`: one record or an array of them. */
  datatype Upserted = OneRecord(data: TagData) | RecordList(items: seq<TagData>)

  /** `upsert`: empties the cache, then assigns each record under its id, treating an
      absent record map as empty. */
  function Upsert(s: TagState, arg: Upserted, u: Option<UserId>): (r: Result<TagState>)
    ensures u.None? <==> r.Failure?
    ensures u.None? ==> r.error == UserIdRequired
    ensures u.Some? ==> Cache(r.value, u.value) == Some([]) && OthersUnchanged(s, r.value, u.value)
    ensures u.Some? ==> Stored(r.value, u.value).Some?
    ensures u.Some? && arg.OneRecord? ==>
      ToMap(Stored(r.value, u.value).value)
      == ToMap(Stored(s, u.value).GetOr([]))[PropertyKey(arg.data.id) := arg.data]
    ensures u.Some? && arg.OneRecord? && PropertyKey(arg.data.id) !in Keys(Stored(s, u.value).GetOr([])) ==>
      Stored(r.value, u.value).value == Stored(s, u.value).GetOr([]) + [Entry(PropertyKey(arg.data.id), arg.data)]
    ensures u.Some? && arg.OneRecord? && UniqueKeys(Stored(s, u.value).GetOr([]))
            && PropertyKey(arg.data.id) in Keys(Stored(s, u.value).GetOr([])) ==>
      var before := Stored(s, u.value).GetOr([]);
      var after := Stored(r.value, u.value).value;
      |after| == |before|
      && forall i :: 0 <= i < |before| ==>
           after[i] == (if before[i].key == PropertyKey(arg.data.id) then Entry(before[i].key, arg.data) else before[i])
    ensures u.Some? && arg.RecordList? ==>
      ToMap(Stored(r.value, u.value).value)
      == ToMap(Stored(s, u.value).GetOr([])) + Assigned(Entries(arg.items))
    ensures u.Some? && UniqueKeys(Stored(s, u.value).GetOr([])) ==> UniqueKeys(Stored(r.value, u.value).value)
  {
    var cleared :- ClearDecryptedTagState(s, u);
    var before := Stored(cleared, u.value).GetOr([]);
    var after :=
      match arg
      case OneRecord(d) => Put(before, PropertyKey(d.id), d)
      case RecordList(ds) => PutAll(before, Entries(ds));
    Success(cleared.(encrypted := cleared.encrypted[u.value := after]))
  }

  /** `replace`: a null map changes nothing, not even the cache; otherwise the cache is
      emptied and the record map becomes exactly the given one. */
  function Replace(s: TagState, tags: Option<Rec<TagData>>, u: Option<UserId>): (r: Result<TagState>)
    ensures tags.None? ==> r == Success(s)
    ensures tags.Some? ==> (u.None? <==> r.Failure?)
    ensures tags.Some? && u.None? ==> r.error == UserIdRequired
    ensures tags.Some? && u.Some? ==>
      Stored(r.value, u.value) == tags && Cache(r.value, u.value) == Some([])
      && OthersUnchanged(s, r.value, u.value)
  {
    if tags.None? then Success(s)
    else
      var cleared :- ClearDecryptedTagState(s, u);
      Success(cleared.(encrypted := cleared.encrypted[u.value := tags.value]))
  }

  /** Replacing twice with the same map is the same as replacing once. */
  lemma ReplaceIdempotent(s: TagState, tags: Option<Rec<TagData>>, u: Option<UserId>)
    requires Replace(s, tags, u).Success?
    ensures Replace(Replace(s, tags, u).value, tags, u) == Replace(s, tags, u)
  {
    if tags.Some? {
      var once := Replace(s, tags, u).value;
      assert once.decrypted[u.value := []] == once.decrypted;
      assert once.encrypted[u.value := tags.value] == once.encrypted;
    }
  }

  /** The first write of `clear`: the record map of `u` becomes `{}`, while the cache
      still holds whatever it held. */
  function ClearRecords(s: TagState, u: UserId): (s': TagState)
    ensures Stored(s', u) == Some([]) && Cache(s', u) == Cache(s, u)
    ensures OthersUnchanged(s, s', u)
  {
    s.(encrypted := s.encrypted[u := []])
  }

  /** `clear`: the record map becomes `{}` and then the cache `[]`. The forced empty
      emission on the view stream is not modelled. */
  function Clear(s: TagState, u: Option<UserId>): (r: Result<TagState>)
    ensures u.None? <==> r.Failure?
    ensures u.Some? ==>
      Stored(r.value, u.value) == Some([]) && Cache(r.value, u.value) == Some([])
      && OthersUnchanged(s, r.value, u.value)
    ensures u.Some? ==> r == ClearDecryptedTagState(ClearRecords(s, u.value), u)
  {
    match u
    case None => Failure(UserIdRequired)
    case Some(id) => ClearDecryptedTagState(ClearRecords(s, id), u)
  }

  /** The argument of `delete`: one id or an array of ids. */
  datatype DeletedIds = OneId(id: string) | IdList(ids: seq<string>)

  function IdsOf(arg: DeletedIds): seq<string> {
    match arg
    case OneId(id) => [id]
    case IdList(ids) => ids
  }

  /** The only part of a cipher the tag service reads or writes. */
  datatype CipherRef = CipherRef(id: string, tagId: Option<string>)

  /** `cipher.tagId === id` with `id` the very argument of `delete`: a string or null never
      equals an array, so a list argument matches no cipher. */
  predicate StillReferences(c: CipherRef, arg: DeletedIds) {
    arg.OneId? && c.tagId == Some(arg.id)
  }

  /** The ciphers moved to "no tag": each matching cipher, in order, with its tag id nulled. */
  function Reassigned(ciphers: seq<CipherRef>, arg: DeletedIds): (ups: seq<CipherRef>)
    ensures |ups| <= |ciphers|
    ensures forall c :: c in ups ==>
      c.tagId.None? && exists d :: d in ciphers && d.id == c.id && StillReferences(d, arg)
    ensures forall d :: d in ciphers && StillReferences(d, arg) ==> CipherRef(d.id, None) in ups
    ensures (forall d :: d in ciphers ==> !StillReferences(d, arg)) ==> ups == []
  {
    if ciphers == [] then []
    else
      var rest := Reassigned(ciphers[1..], arg);
      assert ciphers == [ciphers[0]] + ciphers[1..];
      if StillReferences(ciphers[0], arg) then [CipherRef(ciphers[0].id, None)] + rest else rest
  }

  /** The reassignment of a concatenation is the concatenation of the reassignments, and a
      single cipher is reassigned exactly when it still references the argument: so the
      updates keep the ciphers' order and hold each matching cipher once. */
  lemma {:induction false} ReassignedIsOrderedFilter(a: seq<CipherRef>, b: seq<CipherRef>, c: CipherRef, arg: DeletedIds)
    ensures Reassigned(a + b, arg) == Reassigned(a, arg) + Reassigned(b, arg)
    ensures Reassigned([c], arg) == (if StillReferences(c, arg) then [CipherRef(c.id, None)] else [])
    decreases |a|
  {
    assert [c][1..] == [];
    if a == [] {
      assert a + b == b;
    } else {
      assert (a + b)[0] == a[0] && (a + b)[1..] == a[1..] + b;
      ReassignedIsOrderedFilter(a[1..], b, c, arg);
    }
  }

  datatype DeleteOutcome = DeleteOutcome(state: TagState, upserted: seq<CipherRef>)

  /** `delete`: empties the cache, removes each listed id that is present (an absent
      record map stays absent), then nulls the tag of every cipher that still references
      the argument and hands those ciphers to the cipher service; `upserted` is empty
      exactly when no upsert call is made. */
  function Delete(s: TagState, arg: DeletedIds, u: Option<UserId>, ciphers: Option<seq<CipherRef>>)
    : (r: Result<DeleteOutcome>)
    ensures u.None? <==> r.Failure?
    ensures u.None? ==> r.error == UserIdRequired
    ensures u.Some? ==> Cache(r.value.state, u.value) == Some([]) && OthersUnchanged(s, r.value.state, u.value)
    ensures u.Some? ==> (Stored(r.value.state, u.value).None? <==> Stored(s, u.value).None?)
    ensures u.Some? && Stored(s, u.value).Some? ==>
      var before := Stored(s, u.value).value;
      var after := Stored(r.value.state, u.value).value;
      && Keys(after) == Keys(before) - (set k | k in IdsOf(arg))
      && (forall k :: k in ToMap(before) && k !in IdsOf(arg) ==> ToMap(after)[k] == ToMap(before)[k])
    ensures u.Some? && ciphers.None? ==> r.value.upserted == []
    ensures u.Some? && ciphers.Some? ==> r.value.upserted == Reassigned(ciphers.value, arg)
  {
    var cleared :- ClearDecryptedTagState(s, u);
    var id := u.value;
    var state :=
      if id in cleared.encrypted
      then cleared.(encrypted := cleared.encrypted[id := RemoveAll(cleared.encrypted[id], IdsOf(arg))])
      else cleared;
    var ups := match ciphers case None => [] case Some(cs) => Reassigned(cs, arg);
    Success(DeleteOutcome(state, ups))
  }

  /** Deleting by an array of ids removes the records but moves no cipher to "no tag". */
  lemma ListDeleteReassignsNothing(s: TagState, ids: seq<string>, u: UserId, ciphers: seq<CipherRef>)
    ensures Delete(s, IdList(ids), Some(u), Some(ciphers)).value.upserted == []
  {
  }

  // ----------------------------------------------------------------- reads

  /** `tags$`: one domain object per stored record, in the record map's order. */
  function Tags(s: TagState, u: UserId): (ts: seq<Tag>)
    ensures Stored(s, u).None? ==> ts == []
    ensures Stored(s, u).Some? ==>
      |ts| == |Stored(s, u).value|
      && forall i :: 0 <= i < |ts| ==> ts[i] == TagFromData(Some(Stored(s, u).value[i].value))
  {
    match Stored(s, u)
    case None => []
    case Some(r) =>
      var vs := Values(r);
      seq(|vs|, i requires 0 <= i < |vs| => TagFromData(Some(vs[i])))
  }

  /** `ts[i]` is the first element of `ts` whose id is `id`. */
  predicate FirstWithId(ts: seq<Tag>, id: string, i: int) {
    0 <= i < |ts| && ts[i].id == Some(id) && forall j :: 0 <= j < i ==> ts[j].id != Some(id)
  }

  /** `Array.find` by id. */
  function FindById(ts: seq<Tag>, id: string): (t: Option<Tag>)
    ensures t.Some? ==> t.value.id == Some(id) && t.value in ts
    ensures t.None? ==> forall x :: x in ts ==> x.id != Some(id)
    ensures t.Some? ==> exists i :: FirstWithId(ts, id, i) && ts[i] == t.value
  {
    if ts == [] then None
    else if ts[0].id == Some(id) then Some(ts[0])
    else
      var t := FindById(ts[1..], id);
      assert forall x :: x in ts ==> x == ts[0] || x in ts[1..];
      assert t.Some? ==> exists i :: FirstWithId(ts, id, i) && ts[i] == t.value by {
        if t.Some? {
          var i :| FirstWithId(ts[1..], id, i) && ts[1..][i] == t.value;
          assert ts[i + 1] == t.value;
          forall j | 0 <= j < i + 1 ensures ts[j].id != Some(id) {
            if j > 0 { assert ts[j] == ts[1..][j - 1]; }
          }
        }
      }
      t
  }

  /** `get`: the first stored tag whose id is `id`, or undefined. */
  function Get(s: TagState, id: string, u: UserId): (t: Option<Tag>)
    ensures t.Some? ==> t.value.id == Some(id) && t.value in Tags(s, u)
    ensures t.None? ==> forall x :: x in Tags(s, u) ==> x.id != Some(id)
  {
    FindById(Tags(s, u), id)
  }

  /** On a record map whose records sit under their own ids, `get` is a lookup by key. */
  lemma {:induction false} GetIsLookup(s: TagState, id: string, u: UserId)
    requires Stored(s, u).Some? && WellKeyed(Stored(s, u).value)
    ensures Get(s, id, u).Some? <==> id in ToMap(Stored(s, u).value)
    ensures Get(s, id, u).Some? ==> Get(s, id, u).value == TagFromData(Some(ToMap(Stored(s, u).value)[id]))
  {
    var r := Stored(s, u).value;
    assert Tags(s, u) == seq(|r|, i requires 0 <= i < |r| => TagFromData(Some(r[i].value)));
    FindInWellKeyed(r, id);
  }

  lemma {:induction false} FindInWellKeyed(r: Rec<TagData>, id: string)
    requires WellKeyed(r)
    ensures var ts := seq(|r|, i requires 0 <= i < |r| => TagFromData(Some(r[i].value)));
      && (FindById(ts, id).Some? <==> id in ToMap(r))
      && (FindById(ts, id).Some? ==> FindById(ts, id).value == TagFromData(Some(ToMap(r)[id])))
  {
    var ts := seq(|r|, i requires 0 <= i < |r| => TagFromData(Some(r[i].value)));
    if r != [] {
      var ts' := seq(|r[1..]|, i requires 0 <= i < |r[1..]| => TagFromData(Some(r[1..][i].value)));
      assert ts[1..] == ts';
      FindInWellKeyed(r[1..], id);
      assert ts[0].id == Some(r[0].key);
    }
  }

  // ------------------------------------------------------------ decryption

  /** The "no tag" sentinel: a default view whose name is the localised label. */
  function NoneTag(text: string): (v: TagView)
    ensures v.id.None? && v.revisionDate.None? && v.name == Some(text)
  {
    DefaultView().(name := Some(text))
  }

  /** Orders views by name under the abstract collation. */
  function ByName(collate: (Option<string>, Option<string>) -> bool): (TagView, TagView) -> bool {
    (a: TagView, b: TagView) => collate(a.name, b.name)
  }

  function DecryptAll(r: Rec<TagData>, key: SymmetricKey, crypto: Crypto): (vs: seq<TagView>)
    ensures |vs| == |r|
    ensures forall i :: 0 <= i < |r| ==> vs[i] == DecryptWithKey(TagFromData(Some(r[i].value)), key, crypto)
  {
    seq(|r|, i requires 0 <= i < |r| => DecryptWithKey(TagFromData(Some(r[i].value)), key, crypto))
  }

  /** What a decryption returns, and what it writes to the cache (nothing when absent). */
  datatype Decryption = Decryption(views: seq<TagView>, cacheWrite: Option<seq<TagView>>)

  /** `decryptTags`: a non-empty cache is served as is; null records or a missing user key
      give `[]`; otherwise the decrypted records sorted by name followed by the sentinel,
      which is also written to the cache. */
  function DecryptTags(cached: Option<seq<TagView>>, tagData: Option<Rec<TagData>>,
                       userKey: Option<SymmetricKey>, crypto: Crypto,
                       collate: (Option<string>, Option<string>) -> bool, noneLabel: string): (d: Decryption)
    ensures cached.Some? && |cached.value| > 0 ==> d == Decryption(cached.value, None)
    ensures (cached.None? || cached.value == []) && (tagData.None? || userKey.None?) ==> d == Decryption([], None)
    ensures (cached.None? || cached.value == []) && tagData.Some? && userKey.Some? ==>
      var n := |tagData.value|;
      && |d.views| == n + 1
      && d.views[n] == NoneTag(noneLabel)
      && multiset(d.views[..n]) == multiset(DecryptAll(tagData.value, userKey.value, crypto))
      && (TotalPreorder(ByName(collate)) ==> SortedBy(d.views[..n], ByName(collate)))
      && d.cacheWrite == Some(d.views)
  {
    if cached.Some? && |cached.value| > 0 then Decryption(cached.value, None)
    else if tagData.None? then Decryption([], None)
    else if userKey.None? then Decryption([], None)
    else
      var sorted := InsertionSort(DecryptAll(tagData.value, userKey.value, crypto), ByName(collate));
      var views := sorted + [NoneTag(noneLabel)];
      assert views[..|sorted|] == sorted;
      Decryption(views, Some(views))
  }

  /** One read of the decrypted views of `u`, with its effect on the cache. */
  datatype ViewRead = ViewRead(views: seq<TagView>, state: TagState)

  function ReadViews(s: TagState, u: UserId, userKey: Option<SymmetricKey>, crypto: Crypto,
                     collate: (Option<string>, Option<string>) -> bool, noneLabel: string): (rd: ViewRead)
    ensures rd.state.encrypted == s.encrypted
    ensures OthersUnchanged(s, rd.state, u)
    ensures Cache(rd.state, u) == Cache(s, u) || Cache(rd.state, u) == Some(rd.views)
  {
    var d := DecryptTags(Cache(s, u), Stored(s, u), userKey, crypto, collate, noneLabel);
    match d.cacheWrite
    case None => ViewRead(d.views, s)
    case Some(w) => ViewRead(d.views, s.(decrypted := s.decrypted[u := w]))
  }

  /** The views a read computes from the records alone, ignoring the cache. */
  function FreshViews(s: TagState, u: UserId, userKey: Option<SymmetricKey>, crypto: Crypto,
                      collate: (Option<string>, Option<string>) -> bool, noneLabel: string): seq<TagView> {
    DecryptTags(None, Stored(s, u), userKey, crypto, collate, noneLabel).views
  }

  /** Reading twice without a mutation in between gives the same views: the first read
      either served the cache, cached what it computed, or computed `[]` (which a second
      read computes again). */
  lemma ReadIsMemoised(s: TagState, u: UserId, userKey: Option<SymmetricKey>, crypto: Crypto,
                       collate: (Option<string>, Option<string>) -> bool, noneLabel: string)
    ensures var first := ReadViews(s, u, userKey, crypto, collate, noneLabel);
      ReadViews(first.state, u, userKey, crypto, collate, noneLabel).views == first.views
  {
    var first := ReadViews(s, u, userKey, crypto, collate, noneLabel);
    var d := DecryptTags(Cache(s, u), Stored(s, u), userKey, crypto, collate, noneLabel);
    if d.cacheWrite.Some? {
      assert Cache(first.state, u) == Some(d.views);
      assert |d.views| > 0;
    }
  }

  /** A mutation of the records. */
  datatype Mutation =
    | DoUpsert(arg: Upserted)
    | DoReplace(tags: Option<Rec<TagData>>)
    | DoDelete(ids: DeletedIds, ciphers: Option<seq<CipherRef>>)
    | DoClear

  function Apply(s: TagState, m: Mutation, u: UserId): Result<TagState> {
    match m
    case DoUpsert(arg) => Upsert(s, arg, Some(u))
    case DoReplace(tags) => Replace(s, tags, Some(u))
    case DoDelete(ids, ciphers) =>
      var r :- Delete(s, ids, Some(u), ciphers);
      Success(r.state)
    case DoClear => Clear(s, Some(u))
  }

  /** No stale plaintext survives a mutation: after any upsert, replace, delete or clear,
      the next read is decrypted from the records as they now are. The one exception is
      `replace` with a null map, which changes nothing at all. */
  lemma MutationInvalidatesCache(s: TagState, m: Mutation, u: UserId, userKey: Option<SymmetricKey>,
                                 crypto: Crypto, collate: (Option<string>, Option<string>) -> bool,
                                 noneLabel: string)
    requires !(m.DoReplace? && m.tags.None?)
    ensures Apply(s, m, u).Success?
    ensures var s' := Apply(s, m, u).value;
      ReadViews(s', u, userKey, crypto, collate, noneLabel).views
      == FreshViews(s', u, userKey, crypto, collate, noneLabel)
  {
    var s' := Apply(s, m, u).value;
    assert Cache(s', u) == Some([]);
  }

  /** After `replace({"2": B})` the read shows record 2 and the sentinel, never a view of
      a record the replaced map held. */
  lemma ReplaceThenReadShowsOnlyNewRecords(s: TagState, u: UserId, b: TagData, key: SymmetricKey,
                                           crypto: Crypto, collate: (Option<string>, Option<string>) -> bool,
                                           noneLabel: string)
    requires b.id == Some("2")
    ensures var s' := Replace(s, Some([Entry("2", b)]), Some(u)).value;
      var views := ReadViews(s', u, Some(key), crypto, collate, noneLabel).views;
      && views == [DecryptWithKey(TagFromData(Some(b)), key, crypto), NoneTag(noneLabel)]
      && forall v :: v in views ==> v.id != Some("1")
  {
    var s' := Replace(s, Some([Entry("2", b)]), Some(u)).value;
    var d := DecryptTags(Cache(s', u), Stored(s', u), Some(key), crypto, collate, noneLabel);
    var one := DecryptAll([Entry("2", b)], key, crypto);
    assert |d.views| == 2;
    assert multiset(d.views[..1]) == multiset(one);
    assert d.views[0] in multiset(one);
    assert d.views[0] == one[0];
  }

  /** After `clear`, a read yields exactly the sentinel (or `[]` while no user key is available). */
  lemma ClearThenRead(s: TagState, u: UserId, userKey: Option<SymmetricKey>, crypto: Crypto,
                      collate: (Option<string>, Option<string>) -> bool, noneLabel: string)
    ensures var s' := Clear(s, Some(u)).value;
      var views := ReadViews(s', u, userKey, crypto, collate, noneLabel).views;
      && (userKey.Some? ==> views == [NoneTag(noneLabel)])
      && (userKey.None? ==> views == [])
  {
    var s' := Clear(s, Some(u)).value;
    var d := DecryptTags(Cache(s', u), Stored(s', u), userKey, crypto, collate, noneLabel);
    if userKey.Some? {
      assert |d.views| == 1;
    }
  }

  /** Between the two writes of `clear` the records are already `{}` but a non-empty cache
      is still served as is: a read there yields the views from before the clear. */
  lemma ReadBetweenClearWritesServesOldCache(s: TagState, u: UserId, userKey: Option<SymmetricKey>,
                                              crypto: Crypto, collate: (Option<string>, Option<string>) -> bool,
                                              noneLabel: string)
    requires Cache(s, u).Some? && |Cache(s, u).value| > 0
    ensures var mid := ClearRecords(s, u);
      && Stored(mid, u) == Some([])
      && ReadViews(mid, u, userKey, crypto, collate, noneLabel).views == Cache(s, u).value
  {
  }

  // -------------------------------------------------------------- key events

  /** The state provider's reaction to a lock or logout of `u`: each tag key whose
      clear-on list holds the event is wiped for that user. */
  function OnEvent(s: TagState, event: ClearEvent, u: UserId): (s': TagState)
    ensures ClearedOn(EncryptedTags, event) ==> Stored(s', u).None?
    ensures !ClearedOn(EncryptedTags, event) ==> Stored(s', u) == Stored(s, u)
    ensures ClearedOn(DecryptedTags, event) ==> Cache(s', u).None?
    ensures OthersUnchanged(s, s', u)
  {
    var enc := if ClearedOn(EncryptedTags, event) then s.encrypted - {u} else s.encrypted;
    var dec := if ClearedOn(DecryptedTags, event) then s.decrypted - {u} else s.decrypted;
    TagState(enc, dec)
  }

  /** A lock keeps the encrypted records but drops the cache, so the next read decrypts afresh. */
  lemma LockKeepsRecordsAndForcesDecryption(s: TagState, u: UserId, userKey: Option<SymmetricKey>,
                                            crypto: Crypto, collate: (Option<string>, Option<string>) -> bool,
                                            noneLabel: string)
    ensures Stored(OnEvent(s, Lock, u), u) == Stored(s, u)
    ensures ReadViews(OnEvent(s, Lock, u), u, userKey, crypto, collate, noneLabel).views
         == FreshViews(s, u, userKey, crypto, collate, noneLabel)
  {
  }

  /** After a logout nothing is left to decrypt. */
  lemma LogoutLeavesNoViews(s: TagState, u: UserId, userKey: Option<SymmetricKey>, crypto: Crypto,
                            collate: (Option<string>, Option<string>) -> bool, noneLabel: string)
    ensures ReadViews(OnEvent(s, Logout, u), u, userKey, crypto, collate, noneLabel).views == []
  {
  }

  // ----------------------------------------------------- encryption, rotation

  /** `encrypt`: the id carries over and the name is encrypted; the revision date is left unset. */
  function Encrypt(view: TagView, key: SymmetricKey, crypto: Crypto): (t: Tag)
    ensures t.id == view.id && t.name == crypto.encrypt(view.name, key) && t.revisionDate.None?
  {
    var t := TagFromData(None);
    t.(id := view.id, name := crypto.encrypt(view.name, key))
  }

  /** With an encryption that round-trips, decrypting an encrypted view gives back its id and name. */
  lemma EncryptThenDecrypt(view: TagView, key: SymmetricKey, crypto: Crypto)
    requires RoundTrips(crypto)
    ensures DecryptWithKey(Encrypt(view, key, crypto), key, crypto) == view.(revisionDate := None)
  {
  }

  /** `getRotatedData`: without a new key it fails before encrypting anything; otherwise one
      request per current view, in order, each keeping the id and carrying the name
      encrypted under the new key. The "no tag" sentinel is not filtered out. */
  function GetRotatedData(newKey: Option<SymmetricKey>, views: Option<seq<TagView>>, crypto: Crypto)
    : (r: Result<seq<TagWithIdRequest>>)
    ensures newKey.None? ==> r == Failure(NewKeyRequired)
    ensures newKey.Some? ==> r.Success?
    ensures newKey.Some? && views.None? ==> r.value == []
    ensures newKey.Some? && views.Some? ==>
      |r.value| == |views.value|
      && forall i :: 0 <= i < |views.value| ==>
        r.value[i].id == views.value[i].id
        && WrapCipher(r.value[i].name) == crypto.encrypt(views.value[i].name, newKey.value)
  {
    if newKey.None? then Failure(NewKeyRequired)
    else if views.None? then Success([])
    else
      var vs := views.value;
      Success(seq(|vs|, i requires 0 <= i < |vs| => WithIdRequestFromTag(Encrypt(vs[i], newKey.value, crypto))))
  }

  /** Decrypting a rotation payload's name under the new key gives the view's name back. */
  lemma RotationPreservesNames(newKey: SymmetricKey, views: seq<TagView>, crypto: Crypto)
    requires RoundTrips(crypto)
    ensures var r := GetRotatedData(Some(newKey), Some(views), crypto).value;
      forall i :: 0 <= i < |views| ==> crypto.decrypt(WrapCipher(r[i].name), newKey) == views[i].name
  {
  }

  /** Rotating a freshly decrypted collection yields one payload per record plus one for
      the sentinel, whose id is null. */
  lemma RotationOfFreshViewsKeepsSentinel(tagData: Rec<TagData>, userKey: SymmetricKey, newKey: SymmetricKey,
                                          crypto: Crypto, collate: (Option<string>, Option<string>) -> bool,
                                          noneLabel: string)
    ensures var views := DecryptTags(None, Some(tagData), Some(userKey), crypto, collate, noneLabel).views;
      var r := GetRotatedData(Some(newKey), Some(views), crypto).value;
      |r| == |tagData| + 1 && r[|tagData|].id.None?
  {
  }
}

=== FILE: tag_state.dfy ===
/** The two per-user state keys the tag service stores under, with their
    deserialisers and the account events that wipe them. */
module TagStateKeys {
  import opened Wrappers
  import opened Records
  import opened TagModels

  /** Persisted to disk, or held in memory only. */
  datatype StateLocation = TagDisk | TagMemory

  datatype ClearEvent = Logout | Lock

  datatype UserKeyDefinition = UserKeyDefinition(location: StateLocation, key: string, clearOn: set<ClearEvent>)

  /** The encrypted record map: on disk, wiped on logout only, so it survives a lock. */
  const EncryptedTags := UserKeyDefinition(TagDisk, "tags", {Logout})

  /** The decrypted view cache: in memory, wiped on logout and on lock. */
  const DecryptedTags := UserKeyDefinition(TagMemory, "decryptedTags", {Logout, Lock})

  predicate ClearedOn(def: UserKeyDefinition, event: ClearEvent) {
    event in def.clearOn
  }

  /** The record deserialiser: each stored value goes through `TagData.fromJSON`, keys and order kept. */
  function DeserializeEncrypted(obj: Rec<TagJson>): (r: Rec<TagData>)
    ensures |r| == |obj|
    ensures forall i :: 0 <= i < |obj| ==> r[i].key == obj[i].key && r[i].value == DataFromJson(obj[i].value)
  {
    seq(|obj|, i requires 0 <= i < |obj| => Entry(obj[i].key, DataFromJson(obj[i].value)))
  }

  function SerializeEncrypted(r: Rec<TagData>): Rec<TagJson> {
    seq(|r|, i requires 0 <= i < |r| => Entry(r[i].key, DataToJson(r[i].value)))
  }

  /** Reading back what was written yields the same record map, entry by entry. */
  lemma EncryptedRoundTrip(r: Rec<TagData>)
    ensures DeserializeEncrypted(SerializeEncrypted(r)) == r
  {
  }

  /** The cache deserialiser: null becomes `[]`, otherwise `TagView.fromJSON` element by element. */
  function DeserializeDecrypted(obj: Option<seq<TagJson>>): (r: seq<TagView>)
    ensures obj.None? ==> r == []
    ensures obj.Some? ==> |r| == |obj.value|
    ensures obj.Some? ==> forall i :: 0 <= i < |r| ==> r[i] == ViewFromJson(obj.value[i])
  {
    match obj
    case None => []
    case Some(js) => seq(|js|, i requires 0 <= i < |js| => ViewFromJson(js[i]))
  }

  function SerializeDecrypted(vs: seq<TagView>): seq<TagJson> {
    seq(|vs|, i requires 0 <= i < |vs| => ViewToJson(vs[i]))
  }

  /** The cache survives serialisation: same length, same views in the same order. */
  lemma DecryptedRoundTrip(vs: seq<TagView>)
    ensures DeserializeDecrypted(Some(SerializeDecrypted(vs))) == vs
  {
    forall i | 0 <= i < |vs|
      ensures DeserializeDecrypted(Some(SerializeDecrypted(vs)))[i] == vs[i]
    {
      ViewJsonRoundTrip(vs[i]);
    }
  }
}

=== FILE: wrappers.dfy ===
/** Failure-compatible datatypes shared by the whole model: nullable values,
    operations that may throw, and remote calls whose outcome is an input. */
module Wrappers {

  /** A TypeScript value that may be null or undefined (the two are not distinguished). */
  datatype Option<+T> = None | Some(value: T) {

    /** Returns the value, or `default` when absent (the `??` operator). */
    function GetOr(default: T): T {
      match this
      case Some(v) => v
      case None => default
    }
  }

  /** The result of an operation that either returns a value or throws an error message. */
  datatype Result<+R> = Success(value: R) | Failure(error: string) {
    predicate IsFailure() {
      Failure?
    }

    function PropagateFailure<U>(): Result<U>
      requires Failure?
    {
      Failure(error)
    }

    function Extract(): R
      requires Success?
    {
      value
    }
  }

  /** The outcome of a call to a collaborator the model cannot see (HTTP, storage):
      it either rejects with an error or resolves with a response. */
  datatype Remote<+T> = Rejected(reason: string) | Resolved(response: T)

  /** A `void` response. */
  datatype Unit = Unit
}
